=== FILE: README.md ===
# Appointment-scheduling job pipeline, in Dafny

A model of the asynchronous job pipeline of an appointment-scheduling
service, with proofs about it. The service has three handlers:

- The intake endpoint (`POST /`) takes an uploaded image or a JSON body with
  a `text` key. It writes a `pending` job record to Redis under
  `job:<jobId>` and publishes a task message on `scheduling_queue`.
- The worker's `handleMessage` takes one task message through five stages,
  updating the job record after each stage that produces data:
  1. text acquisition (S3 download and Tesseract OCR for images);
  2. entity extraction (an LLM call);
  3. date/time normalisation (an LLM call);
  4. the confidence guardrail;
  5. the Postgres insert.
  Every error inside its `try` ends in a `failed` record, unless recording
  the failure throws too.
- The status endpoint (`GET /:jobId`) returns the record as it is stored.
  It answers 404 when the record is empty.

Every external system is an oracle: a value given as input. This covers S3,
the OCR engine, each LLM reply together with what `JSON.parse` makes of it,
Postgres, the faults of every Redis call, and the broker. With that, every
handler is a pure function. Each handler also returns the trace of the
calls it made (`Effects.Effect`). The final store is always the initial
store with the trace's successful writes replayed (`Effects.Replay`). This
is what ordering and "nothing else changes" statements are stated over.

Modules, following the program's structure:

- `Base`, `Js`, `JsStrings`: `Option`/`Result`, plus the JavaScript
  semantics the code relies on. These are truthiness, `||`, `??`, template
  interpolation of `undefined`, `<` on `undefined`/`null`, `String.prototype.trim`
  and `toLowerCase`.
- `StatusStore`: Redis hashes. `hSet` is a merge, and `hGetAll` of a
  missing key is the empty hash.
- `Messages`: the task message and the `job:<jobId>` key.
- `OcrProcessor`: `performOCR`'s post-processing, the `queryAI` error funnel,
  timezone tagging, and `applyGuardrailsAndFinalize`.
- `Effects`: the call trace and its replay over the store.
- `Worker`: `handleMessage`, stage by stage.
- `WorkerProperties`, `Redelivery`: what a run of the handler guarantees,
  and what a crash followed by redelivery leaves behind.
- `Http`, `Intake`, `StatusRoute`: the two endpoints.
- `EndToEnd`: the handlers together.

Confidences are `Js.Conf`, one of:

- `Absent`: the reply has no `confidence` key;
- `Null`: the key is there with value `null`;
- `Number(real)`.

The distinction matters. JavaScript's `undefined < 0.7` is false, so a reply
without a `confidence` key passes the guardrail, although `?? 0` stores its
step-2 confidence as 0 (`OcrProcessor.GuardrailMissingConfidence`).
`null < 0.7` is true, so a `null` confidence fails it.

Only image jobs write the `step1_*` fields. A text job's text goes straight
to entity extraction (`WorkerProperties.HandleTextJobCompletes`).

## Model

| member | source | states |
|---|---|---|
| JsStrings.Trim | worker/services/ocrProcessor.js:38-43 | The trimmed text is a contiguous slice of the input, with only whitespace cut on either side. It neither starts nor ends with whitespace. It is empty exactly when the input is all whitespace. |
| JsStrings.TrimIdempotent | worker/services/ocrProcessor.js:43 | Trimming already-trimmed OCR text changes nothing. |
| JsStrings.LowerEqualsKey | worker/services/ocrProcessor.js:120 | `department.toLowerCase()` equals a lower-case table key exactly when the department spells that key ignoring letter case. |
| OcrProcessor.PerformOcr | worker/services/ocrProcessor.js:38-45 | Fails with the fixed "no text" message exactly when the text is missing or whitespace-only. Otherwise it returns the trimmed, non-empty text, and the confidence divided by 100. |
| OcrProcessor.QueryAiFailuresAlike | worker/services/ocrProcessor.js:11-30 | Any two failed AI calls, of whatever kind and for whatever reason, surface as the same error, "AI resonse is not valid json.". |
| OcrProcessor.QueryAi | worker/services/ocrProcessor.js:11-30 | Succeeds exactly when the call returned, the content is non-empty and it parses; the result is the parsed value. Every failure (the call throws, an empty reply, bad JSON) becomes the single error "AI resonse is not valid json.". |
| OcrProcessor.TagTimezone | worker/services/ocrProcessor.js:97 | The normalised result keeps the reply's date, time and confidence. Its timezone is always Asia/Kolkata, overriding any `tz` in the reply. |
| OcrProcessor.TagTimezoneIgnoresReplyTz | worker/services/ocrProcessor.js:97 | Two normalisation replies that differ only in their `tz` key give the same tagged result. |
| OcrProcessor.CanonicalDepartment | worker/services/ocrProcessor.js:115-120 | Maps "dentist" to Dentistry, and "cardiology" and "heart doctor" to Cardiology, in any letter case. Any other name is returned unchanged. |
| OcrProcessor.Guardrail | worker/services/ocrProcessor.js:102-135 | Finalises exactly when the department and date are non-empty and neither confidence is below 0.7. A clarification always carries the fixed message and status needs_clarification. An appointment has status ok, the canonical department, the normalised date, the time or 09:00:00 when it is empty, and timezone Asia/Kolkata. |
| OcrProcessor.GuardrailIgnoresTime | worker/services/ocrProcessor.js:107-113 | Changing the normalised time never changes whether a job is finalised. |
| OcrProcessor.GuardrailThreshold | worker/services/ocrProcessor.js:107 | Everything else being acceptable, a numeric confidence passes exactly when it is at least 0.7. 0.7 itself passes, and this holds for either confidence. |
| OcrProcessor.GuardrailMissingConfidence | worker/services/ocrProcessor.js:104-107 | Whenever the rest is acceptable, an entity reply without a confidence passes the threshold test and one whose confidence is `null` fails it. |
| OcrProcessor.GuardrailExamples | worker/services/ocrProcessor.js:102-135 | A missing department needs clarification. "dentist" at 0.9 becomes a Dentistry appointment at 09:00:00, Asia/Kolkata. 0.69 needs clarification. |
| Messages.JobKeyInjective | worker/worker.js:17 | Two job ids share a record key exactly when they are equal. |
| StatusStore.HSet | worker/worker.js:21-24 | A write sets the given fields. Every other field of the hash, and every other key, keeps its value. Nothing is removed. |
| StatusStore.HSetIdempotent | worker/worker.js:21-24 | Repeating a write with the same values leaves the store as one write did. |
| StatusStore.OverlayAbsorbs | worker/worker.js:21-24 | Laying the same set of hash writes over a store twice gives the same store as laying it once. |
| Effects.ReplayExtends | worker/worker.js:19-101 | Replaying any trace of calls never removes a key or a field. |
| Effects.ReplayOtherKeys | worker/worker.js:17-21 | A trace that writes only to one key leaves every other key's hash as it was. |
| Effects.ReplayKeepsWrittenFields | worker/worker.js:94-100 | Every field a successful write set is still present after all the later calls, so a failure record keeps earlier stage fields. |
| Effects.ReplayLastWriteWins | worker/worker.js:44-59 | A field ends with the value of the last successful write that names it. |
| Effects.ReplayIsOverlay | worker/worker.js:19-101 | Replaying a trace is the same as laying that trace's own writes over the initial store. |
| Effects.ReplayAgain | worker/worker.js:19-101 | Replaying a whole trace over the store that a prefix of the same trace produced ends in the same store as replaying it once. |
| Worker.EntityFields | worker/worker.js:44-49 | The step-2 record has exactly the four step-2 keys. A missing or empty phrase is stored as "N/A" and a missing or null confidence as 0; other values are stored as given. |
| Worker.NormalizedFields | worker/worker.js:53-59 | The step-3 record has exactly the three step-3 keys, with the same substitutions. |
| Worker.Acquire | worker/worker.js:26-40 | A text job takes the message's `rawText` with confidence 1.0, making no call and no write. Any type other than image or text fails with "unsupported input job type: " and the type. An image job that cannot be fetched fails with the S3 message after the one download call. If the OCR engine throws, its error is the job's error. OCR that finds no text fails with the no-text message. Otherwise the trimmed text is passed on, after the download, the recognition call and the step-1 write, and the step-1 write's error, if any, is the job's error. Only the store's job key is written. |
| Worker.Finalize | worker/worker.js:61-90 | An appointment is inserted only when the guardrail finalised it and the insert succeeded. A clarification fails with the guardrail's message, changing nothing. A run that ends without error has a record `completed` with the inserted appointment and its row id. A database error ends the run with the database's message, right after the one insert call, with nothing inserted. A successful insert always counts as inserted, and the run's error is then exactly the `completed` write's error, if it throws. |
| Worker.Normalization | worker/worker.js:51-90 | Whatever is inserted was finalised by the guardrail from the two parsed AI replies. A run that ends without error has completed the record. A failed normalisation call ends the run right after it with "AI resonse is not valid json.". A step-3 write that throws ends it right after that write with the write's error. Neither inserts anything. |
| Worker.Extraction | worker/worker.js:42-90 | As for Normalization, from entity extraction on. A failed extraction call ends the run right after it with "AI resonse is not valid json.". A step-2 write that throws ends it right after that write with the write's error, so nothing is inserted. |
| Worker.Process | worker/worker.js:19-90 | The first call is the `processing` write to the job's key. The store is always the initial store with the trace replayed. An insert happens only for an appointment the guardrail finalised from the replies, and success means a completed record. |
| Worker.Handle | worker/worker.js:14-102 | A message that does not parse escapes with no call made. Otherwise every write goes to `job:<jobId>`, and the first call is the `processing` write. The handler escapes only when the final `failed` write itself throws. Any inserted appointment was finalised by the guardrail, the insert succeeded, and the insert is in the trace. Every insert the handler attempts is of an appointment the guardrail finalised from the two AI replies. When the database accepts the insert, that appointment is the one reported as inserted, whatever happens afterwards. |
| WorkerProperties.HandleEndsTerminal | worker/worker.js:83-100 | A handler that returns leaves the record `completed` or `failed`, never `processing`. |
| WorkerProperties.HandleCompleted | worker/worker.js:74-90 | A `completed` record holds the appointment this run inserted and the row id the database returned. |
| WorkerProperties.HandleOnlyMerges | worker/worker.js:21-100 | Handling a message removes no key and no field, leaves other jobs' records unchanged, and keeps every field any successful write set. |
| WorkerProperties.HandleProcessingWriteFails | worker/worker.js:21-24 | If the `processing` write throws, the next and last call is the `failed` write; no external service is called. |
| WorkerProperties.HandleUnsupportedType | worker/worker.js:36-40 | An unknown job type fails with a message naming the type, after the `processing` write and before any external call. |
| WorkerProperties.HandleImageMissing | worker/worker.js:29-30 | An image that cannot be fetched fails the job with "failed to get image from s3." after the one download call. OCR, the AI and the database are not called and nothing is inserted. |
| WorkerProperties.HandleOcrFails | worker/worker.js:28-31 | For an image that is fetched, with the processing and failure writes succeeding: an OCR engine error fails the job with that error, and OCR that finds no text fails it with the no-text message. Nothing is inserted. |
| WorkerProperties.HandleAiFails | worker/worker.js:43-52 | A failed or unparsable extraction reply, or normalisation reply after a saved step-2 record, fails a readable job with "AI resonse is not valid json.". Nothing is inserted. |
| WorkerProperties.HandleStageWriteFails | worker/worker.js:32-59 | A step-1, step-2 or step-3 write that throws fails a readable job with that write's error, and nothing is inserted. |
| WorkerProperties.HandleOutcome | worker/worker.js:19-101 | A `try` block that ends without error is the handler's result as it stands. An error escapes the handler exactly when the failure write throws. |
| WorkerProperties.HandleFailureRecorded | worker/worker.js:19-100 | Whatever error the `try` block throws, at any stage and for any job, the handler returns normally and the record holds status `failed` with that error's message, unless the failure write itself throws. |
| WorkerProperties.HandleGuardrailRejects | worker/worker.js:61-67 | For an image job whose image and OCR text are found, or any text job, with every write succeeding: when the guardrail asks for clarification, the job fails with the guardrail's message and no insert is made or attempted. |
| WorkerProperties.HandleNeedsClarification | worker/worker.js:62-66 | For a text job whose writes all succeed: when the guardrail asks for clarification, the exact calls are processing, extract, step-2 write, normalise, step-3 write and the failure write. Nothing is inserted. The record is `failed` with the guardrail's message and still holds the step-2 and step-3 fields. |
| WorkerProperties.HandleTextJobCompletes | worker/worker.js:19-90 | A text job whose calls all succeed makes exactly these calls in order, with no step-1 write: processing, extract of `rawText`, step-2 write, normalise, step-3 write, insert, completion. It inserts one appointment, and its record is `completed` with it. |
| WorkerProperties.HandleImageJobCompletes | worker/worker.js:28-35 | An image job whose calls all succeed downloads by the message's `s3Key` and recognises the image. It saves the trimmed OCR text as step 1 and passes that text to entity extraction, then completes as a text job does. The step-1 fields survive in the completed record. |
| WorkerProperties.HandleCompletionWriteFails | worker/worker.js:80-100 | For an image job whose image and OCR text are found, or any text job: when the insert succeeds but the `completed` write throws, the job ends `failed` with that write's message, and the appointment still counts as inserted. |
| WorkerProperties.HandleInsertFails | worker/worker.js:80-100 | For an image job whose image and OCR text are found, or any text job, with every write succeeding: a database error fails the job with the database's message, and nothing counts as inserted. |
| Redelivery.HandleIgnoresStore | worker/worker.js:14-102 | The calls the handler makes do not depend on what the store held, because the worker writes the record but never reads it. |
| Redelivery.HandleRedelivered | worker/worker.js:14-102 | Suppose a worker stops after any prefix of its calls and the message is then redelivered. The record ends exactly as after one uninterrupted run. Every insert made before the stop is made again, so a crash after the insert leaves a second appointment row for the same job. |
| Intake.Classify | api-server/routes/schedule.js:19-51 | A file takes precedence over text. Text is used only when it is a non-empty string, and with neither the request is refused. |
| Intake.Schedule | api-server/routes/schedule.js:11-68 | A refused request answers 400, with no call and no change. Otherwise the first call writes the pending record under `job:<jobId>`. A publish of the matching message follows only when that write succeeded. The reply is 202 with the job id exactly when both succeed, none when the broker connection fails (the process exits), and the 500 error body when the write or a channel call throws. |
| Intake.MessageAgreesWithRecord | api-server/routes/schedule.js:19-46 | The message names the same job, type, and `s3Key` or `rawText` as the pending record. |
| Intake.PublishFailureLeavesPending | api-server/routes/schedule.js:54-66 | A failed publish after a successful record write leaves the record pending and does not answer 202. |
| Intake.ScheduleExamples | api-server/routes/schedule.js:34-51 | An empty text is refused like a missing one, with no calls. An image wins over text. |
| StatusRoute.StatusOf | api-server/routes/status.js:7-24 | The one call is a read of `job:<jobId>`. A read error answers 500. An empty hash answers 404 "job is not in Redis.". Otherwise the answer is 200 with the stored record verbatim. |
| StatusRoute.StatusIsReadOnly | api-server/routes/status.js:12 | A lookup leaves the store unchanged. |
| EndToEnd.AcceptedJobIsPending | api-server/routes/schedule.js:54-63 | Right after a 202, a lookup of the job answers 200 with the pending record. |
| EndToEnd.AcceptedTextJobCompletes | api-server/routes/schedule.js:34-63 | An accepted text request's queued message, handled with every call succeeding, leads to a lookup answering 200 with a `completed` record naming the inserted appointment. |
| EndToEnd.OtherJobsUnaffected | api-server/routes/status.js:9-19 | Handling one job's message never changes what a lookup of another job answers. |

## Left out

- The Tesseract and Groq calls and their prompts, the S3 download, and the
  Postgres query are not modelled. They are foreign, non-deterministic calls.
  Each is an oracle input giving its result or its error. `JSON.parse` of an
  AI reply is part of that oracle.
- The reference date `CURRENT_DATE` is only read by the normalisation
  prompt, so it is left out with the prompt.
- Client and connection setup for Redis, Postgres, RabbitMQ and S3 is not
  modelled, nor is the Express wiring, CORS, or multer's upload to S3 before
  the intake handler runs. These are plumbing. The upload's object key is an
  input.
- The consumer loop, `prefetch(1)` and acknowledgement are not modelled.
  The broker acknowledges a message only when `handleMessage` returns.
  `Worker.Handle` reports whether it escaped instead. Redelivery is covered
  only as `Redelivery.HandleRedelivered` states it: the second delivery is
  assumed to see the same oracle answers.
- `createdAt` and `updatedAt` are not modelled. They are wall-clock values
  nothing depends on.
- The job id from `uuidv4()` is an input: it is randomness.
- Publishing is modelled as one JSON message carried unchanged to the
  worker. JSON serialisation and parsing of the message are not modelled,
  and neither is the unused boolean returned by `sendToQueue`.
- Worker.Handle: assumes the message's `data` is an object and its fields
  are strings or missing. Other messages behave in ways not modelled. A
  missing or `null` `data` on an image or text job throws a `TypeError`
  when a field of it is read. A numeric `rawText` reaches the extraction
  call, and a numeric `type` is named in the unsupported-type message.
  A `jobId` or `type` is a string or missing: a JSON `null` there, which
  JavaScript interpolates as "null" rather than "undefined" into
  `job:${jobId}` and the unsupported-type message, is not modelled.
- Intake.Classify: takes the body's `text` to be a string or missing. A
  truthy `text` that is not a string is not modelled.
- Worker.EntityFields: stores confidences as numbers, not as the decimal text
  `toString()` writes. The same holds for Worker.NormalizedFields, the OCR
  confidence, and `appointmentId`. Number formatting is left out.
- OcrProcessor.PerformOcr: takes the engine's confidence as a real, so a
  missing confidence (which JavaScript divides to `NaN`) is not modelled.
- OcrProcessor.CanonicalDepartment: models `toLowerCase` on ASCII letters
  only. The one non-ASCII character that lower-cases into ASCII (the Kelvin
  sign) gives `k`, which no table key contains. A department that is not a
  string, on which `toLowerCase` throws, is not modelled. Neither are
  lookups of prototype keys such as `constructor` in the department table.
- OcrProcessor.Guardrail: takes each parsed AI reply to be an object whose
  phrases and dates are strings, `null` or missing, and whose confidence is
  a number, `null` or missing. Other JSON is not modelled. A string
  confidence such as "high" or "0.9" would pass the `< 0.7` test (the
  comparison is false) and be stored as given. A numeric date would count
  as present. An entity reply that parses to `null` would make the worker
  throw a `TypeError` when it reads the step-2 fields.
- Confidences are exact reals, so floating-point rounding is not modelled.
- Effects.Apply: treats a Redis write that throws as having changed
  nothing. A write that times out on the client may already have been
  applied by the server, and that case is not modelled.
- Every external call is taken to answer, with a value or an error. The
  worker sets no timeouts, so a call that never returns leaves the record
  `processing` for good. The model covers this only as a stop after a
  prefix of the calls, in `Redelivery.HandleRedelivered`.

=== FILE: base.dfy ===
/** Optional values and JavaScript-style errors. */
module Base {

  /** A value that may be missing (JavaScript `null` or `undefined` where the
      distinction does not matter). */
  datatype Option<+T> = None | Some(value: T)

  /** The outcome of a call that may throw: `Err` carries the thrown
      error's `message`. */
  datatype Result<+T> = Ok(value: T) | Err(message: string)
}

/** The few JavaScript coercions the pipeline relies on. */
module Js {
  import opened Base

  /** `!!s` for a string-or-nullish value: the empty string is falsy. */
  predicate Truthy(s: Option<string>)
  {
    s.Some? && s.value != ""
  }

  /** `s || fallback` for a string-or-nullish value. */
  function Or(s: Option<string>, fallback: string): string
  {
    if Truthy(s) then s.value else fallback
  }

  /** `${s}` in a template literal: a missing value prints as "undefined". */
  function Template(s: Option<string>): string
  {
    match s
    case Some(v) => v
    case None => "undefined"
  }

  /** A confidence read from a parsed JSON reply. The three cases behave
      differently under JavaScript coercion, so none is folded into another:
      `Absent` is a missing key (`undefined`), `Null` is an explicit `null`. */
  datatype Conf = Absent | Null | Number(value: real)

  /** `c < bound` with JavaScript's coercion: `undefined` becomes NaN, which
      is below nothing; `null` becomes 0. */
  predicate Below(c: Conf, bound: real)
  {
    match c
    case Absent => false
    case Null => 0.0 < bound
    case Number(v) => v < bound
  }

  /** `c ?? 0`: both nullish forms become 0. */
  function OrZero(c: Conf): real
  {
    match c
    case Number(v) => v
    case _ => 0.0
  }
}

=== FILE: effects.dfy ===
/** The calls the handlers make on the outside world, in order. The status
    store is the only one with state the model tracks; replaying the logged
    writes over the initial store gives the final one. */
module Effects {
  import opened Base
  import opened StatusStore
  import opened Messages
  import opened OcrProcessor

  datatype Effect =
    | Write(key: string, fields: Record, applied: bool)     // hSet; `applied` is false when it threw
    | Read(key: string)                                     // hGetAll
    | Download(s3Key: Option<string>)                       // object-storage fetch
    | Recognize(image: Bytes)                               // OCR engine
    | Extract(text: Option<string>)                         // entity-extraction AI call
    | Normalize(datePhrase: Option<string>, timePhrase: Option<string>)  // normalisation AI call
    | Insert(appointment: Appointment)                      // appointment row insert
    | Publish(queue: string, message: TaskMessage, sent: bool)

  /** The store after one call. */
  function Apply(store: Store, e: Effect): Store
  {
    if e.Write? && e.applied then HSet(store, e.key, e.fields) else store
  }

  /** The store after a sequence of calls, first to last. */
  function Replay(store: Store, trace: seq<Effect>): Store
    decreases |trace|
  {
    if |trace| == 0 then store else Replay(Apply(store, trace[0]), trace[1..])
  }

  /** No call in `trace` writes to the store. */
  predicate ReadOnly(trace: seq<Effect>)
  {
    forall i :: 0 <= i < |trace| ==> !trace[i].Write?
  }

  /** Every write in `trace` is to `key`. */
  predicate WritesOnlyTo(trace: seq<Effect>, key: string)
  {
    forall i :: 0 <= i < |trace| && trace[i].Write? ==> trace[i].key == key
  }

  lemma {:induction false} ReplayConcat(store: Store, t1: seq<Effect>, t2: seq<Effect>)
    ensures Replay(store, t1 + t2) == Replay(Replay(store, t1), t2)
    decreases |t1|
  {
    if |t1| > 0 {
      assert (t1 + t2)[0] == t1[0];
      assert (t1 + t2)[1..] == t1[1..] + t2;
      ReplayConcat(Apply(store, t1[0]), t1[1..], t2);
    } else {
      assert t1 + t2 == t2;
    }
  }

  /** Appending one call applies it to the replayed store. */
  lemma ReplaySnoc(store: Store, trace: seq<Effect>, e: Effect)
    ensures Replay(store, trace + [e]) == Apply(Replay(store, trace), e)
  {
    ReplayConcat(store, trace, [e]);
  }

  /** Replaying writes never removes a key or a field. */
  lemma {:induction false} ReplayExtends(store: Store, trace: seq<Effect>)
    ensures Extends(store, Replay(store, trace))
    decreases |trace|
  {
    if |trace| > 0 {
      var next := Apply(store, trace[0]);
      if trace[0].Write? && trace[0].applied {
        HSetExtends(store, trace[0].key, trace[0].fields);
      }
      ReplayExtends(next, trace[1..]);
      ExtendsTransitive(store, next, Replay(next, trace[1..]));
    }
  }

  /** A read-only trace leaves the store as it was. */
  lemma {:induction false} ReplayReadOnly(store: Store, trace: seq<Effect>)
    requires ReadOnly(trace)
    ensures Replay(store, trace) == store
    decreases |trace|
  {
    if |trace| > 0 {
      assert !trace[0].Write?;
      ReplayReadOnly(store, trace[1..]);
    }
  }

  /** Every field an applied write set is still present after the whole
      trace: later writes only add or overwrite. */
  lemma {:induction false} ReplayKeepsWrittenFields(store: Store, trace: seq<Effect>, i: nat)
    requires i < |trace| && trace[i].Write? && trace[i].applied
    ensures trace[i].key in Replay(store, trace)
    ensures trace[i].fields.Keys <= Replay(store, trace)[trace[i].key].Keys
  {
    var before := Replay(store, trace[..i]);
    var after := Apply(before, trace[i]);
    assert trace == trace[..i] + [trace[i]] + trace[i + 1..];
    ReplayConcat(store, trace[..i] + [trace[i]], trace[i + 1..]);
    ReplaySnoc(store, trace[..i], trace[i]);
    ReplayExtends(after, trace[i + 1..]);
  }

  /** Keys no write in the trace names keep their hash. */
  lemma {:induction false} ReplayOtherKeys(store: Store, trace: seq<Effect>, key: string, other: string)
    requires WritesOnlyTo(trace, key) && other != key
    ensures HGetAll(Replay(store, trace), other) == HGetAll(store, other)
    decreases |trace|
  {
    if |trace| > 0 {
      ReplayOtherKeys(Apply(store, trace[0]), trace[1..], key, other);
    }
  }

  /** A field that no applied write to its key names keeps its value. */
  lemma {:induction false} ReplayUntouched(store: Store, trace: seq<Effect>, key: string, f: string)
    requires f in HGetAll(store, key)
    requires forall j :: 0 <= j < |trace| && trace[j].Write? && trace[j].applied && trace[j].key == key ==>
               f !in trace[j].fields
    ensures f in HGetAll(Replay(store, trace), key)
    ensures HGetAll(Replay(store, trace), key)[f] == HGetAll(store, key)[f]
    decreases |trace|
  {
    if |trace| > 0 {
      ReplayUntouched(Apply(store, trace[0]), trace[1..], key, f);
    }
  }

  /** The last applied write of a field decides its value in the end. */
  lemma ReplayLastWriteWins(store: Store, trace: seq<Effect>, i: nat, f: string)
    requires i < |trace| && trace[i].Write? && trace[i].applied && f in trace[i].fields
    requires forall j :: i < j < |trace| && trace[j].Write? && trace[j].applied && trace[j].key == trace[i].key ==>
               f !in trace[j].fields
    ensures f in HGetAll(Replay(store, trace), trace[i].key)
    ensures HGetAll(Replay(store, trace), trace[i].key)[f] == trace[i].fields[f]
  {
    var after := Apply(Replay(store, trace[..i]), trace[i]);
    assert trace == trace[..i] + [trace[i]] + trace[i + 1..];
    ReplayConcat(store, trace[..i] + [trace[i]], trace[i + 1..]);
    ReplaySnoc(store, trace[..i], trace[i]);
    var rest := trace[i + 1..];
    forall j | 0 <= j < |rest| && rest[j].Write? && rest[j].applied && rest[j].key == trace[i].key
      ensures f !in rest[j].fields
    {
      assert rest[j] == trace[i + 1 + j];
    }
    ReplayUntouched(after, rest, trace[i].key, f);
  }

  /** Every field of an applied write whose fields no later write to the
      same key names is held by the final record. */
  lemma FieldsSurvive(store: Store, trace: seq<Effect>, i: nat)
    requires i < |trace| && trace[i].Write? && trace[i].applied
    requires forall j :: i < j < |trace| && trace[j].Write? && trace[j].applied && trace[j].key == trace[i].key ==>
               trace[j].fields.Keys !! trace[i].fields.Keys
    ensures Holds(HGetAll(Replay(store, trace), trace[i].key), trace[i].fields)
  {
    forall f | f in trace[i].fields
      ensures f in HGetAll(Replay(store, trace), trace[i].key)
      ensures HGetAll(Replay(store, trace), trace[i].key)[f] == trace[i].fields[f]
    {
      ReplayLastWriteWins(store, trace, i, f);
    }
  }

  /** Replaying a trace lays the writes it makes, taken on their own, over
      the store. */
  lemma {:induction false} ReplayIsOverlay(store: Store, trace: seq<Effect>)
    ensures Replay(store, trace) == Overlay(store, Replay(map[], trace))
    decreases |trace|
  {
    OverlayEmpty(store);
    if |trace| > 0 {
      var e, rest := trace[0], trace[1..];
      var d := Replay(map[], rest);
      ReplayIsOverlay(Apply(store, e), rest);
      ReplayIsOverlay(Apply(map[], e), rest);
      if e.Write? && e.applied {
        var one := map[e.key := e.fields];
        HSetIsOverlay(store, e.key, e.fields);
        HSetIsOverlay(map[], e.key, e.fields);
        OverlayEmpty(one);
        OverlayAssociative(store, one, d);
      } else {
        OverlayEmpty(d);
      }
    }
  }

  /** Replaying a whole trace over the store that a prefix of it already
      produced ends where replaying the trace once does: hash writes may
      be repeated harmlessly. */
  lemma ReplayAgain(store: Store, trace: seq<Effect>, n: nat)
    requires n <= |trace|
    ensures Replay(Replay(store, trace[..n]), trace) == Replay(store, trace)
  {
    var p, r, d := Replay(map[], trace[..n]), Replay(map[], trace[n..]), Replay(map[], trace);
    assert trace == trace[..n] + trace[n..];
    ReplayConcat(map[], trace[..n], trace[n..]);
    ReplayIsOverlay(p, trace[n..]);
    assert d == Overlay(p, r);
    ReplayIsOverlay(store, trace[..n]);
    ReplayIsOverlay(Replay(store, trace[..n]), trace);
    ReplayIsOverlay(store, trace);
    OverlayAssociative(Overlay(store, p), p, r);
    OverlayAbsorbs(store, p);
    OverlayAssociative(store, p, r);
  }
}

=== FILE: end_to_end.dfy ===
/** The three handlers together: a job is accepted, handled by the worker
    from the queued message, and looked up. */
module EndToEnd {
  import opened Base
  import opened Js
  import opened StatusStore
  import opened Messages
  import opened OcrProcessor
  import opened Effects
  import opened Http
  import opened Worker
  import opened WorkerProperties
  import opened Intake
  import opened StatusRoute

  /** Right after an accepted request, looking the job up finds it
      pending, with the input type of the request. */
  lemma AcceptedJobIsPending(store: Store, req: Request, jobId: string, io: IntakeOracles)
    requires Schedule(store, req, jobId, io).reply == Json(202, AcceptedBody(jobId))
    ensures var l := StatusOf(Schedule(store, req, jobId, io).store, jobId, false);
      && l.reply.code == 200
      && Holds(l.reply.body, PendingFields(Classify(req).value))
  {
  }

  /** A text request that is accepted, whose queued message is then handled
      with every call succeeding and the guardrail passing, is reported
      `completed` with the appointment that was inserted. */
  lemma AcceptedTextJobCompletes(store: Store, text: string, jobId: string, io: IntakeOracles, o: Oracles,
                                 e: Entities, reply: NormReply, a: Appointment, id: int)
    requires text != "" && !io.recordWriteFails && io.publish.Published?
    requires o.storeFaults == map[] && QueryAi(o.extract) == Ok(e) && QueryAi(o.normalize) == Ok(reply)
    requires Guardrail(e, TagTimezone(reply)) == Finalized(a) && o.insert == Ok(id)
    ensures var i := Schedule(store, Request(None, Some(text)), jobId, io);
      && i.reply == Json(202, AcceptedBody(jobId))
      && |i.trace| == 2 && i.trace[1].Publish? && i.trace[1].sent
      && var h := Handle(i.store, Some(i.trace[1].message), o);
         && h.inserted == Some(a)
         && var l := StatusOf(h.store, jobId, false);
            l.reply.code == 200 && CompletedWith(l.reply.body, id, a)
  {
    var i := Schedule(store, Request(None, Some(text)), jobId, io);
    var m := TaskFor(jobId, TextSubmission(text));
    assert i.trace[1].message == m;
    assert JobKey(Template(m.jobId)) == JobKey(jobId);
    HandleTextJobCompletes(i.store, m, o, e, reply, a, id);
    var h := Handle(i.store, Some(m), o);
    assert "status" in HGetAll(h.store, JobKey(jobId));
  }

  /** Handling one job's message never changes what a lookup of another
      job reports. */
  lemma OtherJobsUnaffected(store: Store, m: TaskMessage, o: Oracles, jobId: string, readFails: bool)
    requires Template(m.jobId) != jobId
    ensures StatusOf(Handle(store, Some(m), o).store, jobId, readFails) == StatusOf(store, jobId, readFails)
  {
    JobKeyInjective(Template(m.jobId), jobId);
    HandleOnlyMerges(store, m, o, JobKey(jobId));
  }
}

=== FILE: http.dfy ===
/** What an HTTP handler sends back. */
module Http {
  import opened StatusStore

  /** A JSON reply with its status code, or none at all when the process
      exits first. A body is a flat object; its values are kept as store
      values, since a status reply is a stored record as it is. */
  datatype Reply = Json(code: nat, body: Record) | NoReply

  /** `{ error: message }`. */
  function ErrorBody(message: string): Record
  {
    map["error" := Str(message)]
  }

  const ServerError := "server error."
}

=== FILE: js_strings.dfy ===
/** `String.prototype.trim` and the ASCII part of `toLowerCase`. */
module JsStrings {

  /** The characters `trim` removes: ECMAScript WhiteSpace (tab, vertical
      tab, form feed, no-break space, byte-order mark and every space
      separator) and LineTerminator (LF, CR, LS, PS). */
  predicate IsWhitespace(c: char)
  {
    || c == '\t' || c == '\n' || c == '\U{B}' || c == '\U{C}' || c == '\r'
    || c == ' ' || c == '\U{A0}' || c == '\U{1680}'
    || ('\U{2000}' <= c <= '\U{200A}')
    || c == '\U{2028}' || c == '\U{2029}' || c == '\U{202F}' || c == '\U{205F}'
    || c == '\U{3000}' || c == '\U{FEFF}'
  }

  predicate AllWhitespace(s: string)
  {
    forall i :: 0 <= i < |s| ==> IsWhitespace(s[i])
  }

  /** Number of whitespace characters at the start of `s`. */
  function LeadingWhitespace(s: string): (n: nat)
    ensures n <= |s|
    ensures AllWhitespace(s[..n])
    ensures n < |s| ==> !IsWhitespace(s[n])
  {
    if |s| == 0 || !IsWhitespace(s[0]) then 0
    else
      var k := LeadingWhitespace(s[1..]);
      assert s[1..][..k] == s[1..k + 1];
      1 + k
  }

  /** Number of whitespace characters at the end of `s`. */
  function TrailingWhitespace(s: string): (n: nat)
    ensures n <= |s|
    ensures AllWhitespace(s[|s| - n..])
    ensures n < |s| ==> !IsWhitespace(s[|s| - n - 1])
  {
    if |s| == 0 || !IsWhitespace(s[|s| - 1]) then 0
    else
      var k := TrailingWhitespace(s[..|s| - 1]);
      assert s[..|s| - 1][|s| - 1 - k..] == s[|s| - 1 - k..|s| - 1];
      1 + k
  }

  /** `s.trim()`: `s` is the result with whitespace-only padding on both
      sides, and the result neither starts nor ends with whitespace. */
  function Trim(s: string): (t: string)
    ensures |t| <= |s|
    ensures var i := LeadingWhitespace(s);
      i + |t| <= |s| && s[i..i + |t|] == t
      && AllWhitespace(s[..i]) && AllWhitespace(s[i + |t|..])
    ensures |t| > 0 ==> !IsWhitespace(t[0]) && !IsWhitespace(t[|t| - 1])
    ensures |t| == 0 <==> AllWhitespace(s)
  {
    var i := LeadingWhitespace(s);
    if i == |s| then
      assert s[..i] == s;
      ""
    else
      var j := TrailingWhitespace(s);
      s[i..|s| - j]
  }

  /** Trimming twice is trimming once. */
  lemma {:induction false} TrimIdempotent(s: string)
    ensures Trim(Trim(s)) == Trim(s)
  {
    var t := Trim(s);
    if |t| > 0 {
      assert LeadingWhitespace(t) == 0;
      assert TrailingWhitespace(t) == 0;
    }
  }

  /** The ASCII upper-case letter for a lower-case one; every other
      character is its own upper-case form. */
  function UpperChar(c: char): char
  {
    if 'a' <= c <= 'z' then (c as int - 32) as char else c
  }

  /** `toLowerCase` on one character, for the ASCII letters. */
  function LowerChar(c: char): char
  {
    if 'A' <= c <= 'Z' then (c as int + 32) as char else c
  }

  function Lower(s: string): (r: string)
    ensures |r| == |s|
    ensures forall i :: 0 <= i < |s| ==> r[i] == LowerChar(s[i])
  {
    if |s| == 0 then "" else [LowerChar(s[0])] + Lower(s[1..])
  }

  /** `key` contains no ASCII upper-case letter. */
  predicate IsLowerKey(key: string)
  {
    forall i :: 0 <= i < |key| ==> !('A' <= key[i] <= 'Z')
  }

  /** `s` spells `key` with any of its letters written in upper case. */
  predicate SpellsIgnoringCase(s: string, key: string)
  {
    |s| == |key| && forall i :: 0 <= i < |s| ==> s[i] == key[i] || s[i] == UpperChar(key[i])
  }

  lemma LowerCharMatches(c: char, k: char)
    requires !('A' <= k <= 'Z')
    ensures LowerChar(c) == k <==> c == k || c == UpperChar(k)
  {
  }

  /** Looking up the lower-cased string in a table of lower-case keys is
      the same as a case-insensitive comparison with each key. */
  lemma {:induction false} LowerEqualsKey(s: string, key: string)
    requires IsLowerKey(key)
    ensures Lower(s) == key <==> SpellsIgnoringCase(s, key)
  {
    if Lower(s) == key {
      forall i | 0 <= i < |s|
        ensures s[i] == key[i] || s[i] == UpperChar(key[i])
      {
        LowerCharMatches(s[i], key[i]);
      }
    }
    if SpellsIgnoringCase(s, key) {
      forall i | 0 <= i < |s|
        ensures Lower(s)[i] == key[i]
      {
        LowerCharMatches(s[i], key[i]);
      }
    }
  }
}

=== FILE: messages.dfy ===
/** The task message that intake publishes and the worker consumes, and
    the job key both sides derive from its id. */
module Messages {
  import opened Base

  /** The name of the one queue between intake and the worker. */
  const Queue := "scheduling_queue"

  /** The `data` object of a task: the upload's key for an image job, the
      submitted text for a text job. */
  datatype TaskData = TaskData(s3Key: Option<string>, rawText: Option<string>)

  /** `{jobId, type, data}` after `JSON.parse`; a field the JSON lacks is
      `None`. */
  datatype TaskMessage = TaskMessage(jobId: Option<string>, kind: Option<string>, data: TaskData)

  /** The status-store key of a job: `job:<jobId>`. */
  function JobKey(jobId: string): string
  {
    "job:" + jobId
  }

  /** Distinct jobs never share a record. */
  lemma JobKeyInjective(a: string, b: string)
    ensures JobKey(a) == JobKey(b) <==> a == b
  {
    if JobKey(a) == JobKey(b) {
      assert a == JobKey(a)[4..] && b == JobKey(b)[4..];
    }
  }
}

=== FILE: ocr_processor.dfy ===
/** The processing steps of the worker around its external calls: OCR
    post-processing, the AI reply funnel, timezone tagging, and the
    guardrail that turns extracted data into an appointment. */
module OcrProcessor {
  import opened Base
  import opened Js
  import opened JsStrings

  type Bytes = seq<bv8>

  /** The one timezone every appointment is booked in. */
  const Timezone := "Asia/Kolkata"

  /** The time booked when normalisation produced none. */
  const DefaultTime := "09:00:00"

  /** Both confidences must reach this value. */
  const Threshold: real := 0.7

  const ClarificationMessage := "Ambiguous or missing date or department."

  /** The single error every failed AI call surfaces as (spelled as the
      service spells it). */
  const AiInvalidJson := "AI resonse is not valid json."

  const NoTextFound := "ocr cant find any text in the image provided !!.."

  // ---------------------------------------------------------------- OCR

  /** What the OCR engine reports for an image: its text (possibly
      missing) and its confidence on a 0-100 scale. */
  datatype OcrData = OcrData(text: Option<string>, confidence: real)

  /** Text taken from an image, with confidence on a 0-1 scale. */
  datatype OcrResult = OcrResult(rawText: string, confidence: real)

  /** The checks and conversions `performOCR` applies to the engine's
      report: reject a missing or blank text, keep the trimmed text, and
      rescale the confidence. */
  function PerformOcr(data: OcrData): (r: Result<OcrResult>)
    ensures r.Err? <==> data.text.None? || AllWhitespace(data.text.value)
    ensures r.Err? ==> r.message == NoTextFound
    ensures r.Ok? ==> r.value.rawText == Trim(data.text.value) && r.value.rawText != ""
    ensures r.Ok? ==> r.value.confidence * 100.0 == data.confidence
  {
    if !Truthy(data.text) || |Trim(data.text.value)| == 0 then Err(NoTextFound)
    else Ok(OcrResult(Trim(data.text.value), data.confidence / 100.0))
  }

  // ---------------------------------------------------------------- AI

  /** What a chat-completion request yields: either the call threw, or it
      returned the first choice's message content (missing when there is
      no choice) together with what `JSON.parse` makes of that content
      (`None` when parsing throws). */
  datatype AiCall<+T> = CallFailed(error: string) | Replied(content: Option<string>, parsed: Option<T>)

  /** `queryAI`: the parsed reply, or the one funnel error whatever went
      wrong (the call, an empty reply, unparsable JSON). */
  function QueryAi<T>(call: AiCall<T>): (r: Result<T>)
    ensures r.Ok? <==> call.Replied? && Truthy(call.content) && call.parsed.Some?
    ensures r.Ok? ==> r.value == call.parsed.value
    ensures r.Err? ==> r.message == AiInvalidJson
  {
    match call
    case CallFailed(_) => Err(AiInvalidJson)
    case Replied(content, parsed) =>
      if !Truthy(content) then Err(AiInvalidJson)
      else match parsed
        case None => Err(AiInvalidJson)
        case Some(v) => Ok(v)
  }

  /** Every failed AI call looks the same to the caller: whatever went
      wrong, and in whichever call, the error is one and the same. */
  lemma QueryAiFailuresAlike<T, U>(c1: AiCall<T>, c2: AiCall<U>)
    requires QueryAi(c1).Err? && QueryAi(c2).Err?
    ensures QueryAi(c1).message == QueryAi(c2).message == AiInvalidJson
  {
  }

  /** The entity-extraction reply: three phrases and a confidence, each
      possibly missing. */
  datatype Entities = Entities(department: Option<string>, datePhrase: Option<string>,
                               timePhrase: Option<string>, confidence: Conf)

  /** The normalisation reply as parsed; a `tz` key in it is possible. */
  datatype NormReply = NormReply(date: Option<string>, time: Option<string>, confidence: Conf,
                                 tz: Option<string>)

  /** The normalised date and time with the service's timezone attached. */
  datatype Normalized = Normalized(date: Option<string>, time: Option<string>, confidence: Conf,
                                   tz: string)

  /** `{ ...result, tz: TIMEZONE }`: the reply's fields, with the fixed
      timezone overriding any the reply carried. */
  function TagTimezone(reply: NormReply): (n: Normalized)
    ensures n.tz == Timezone
    ensures n.date == reply.date && n.time == reply.time && n.confidence == reply.confidence
  {
    Normalized(reply.date, reply.time, reply.confidence, Timezone)
  }

  /** The timezone a reply names plays no part: replies that differ only
      in `tz` are tagged alike. */
  lemma TagTimezoneIgnoresReplyTz(reply: NormReply, tz: Option<string>)
    ensures TagTimezone(reply.(tz := tz)) == TagTimezone(reply)
  {
  }

  // ---------------------------------------------------------- guardrail

  datatype Appointment = Appointment(department: string, date: string, time: string, tz: string)

  datatype Decision = NeedsClarification(message: string) | Finalized(appointment: Appointment)
  {
    /** The `status` field of the returned object. */
    function Status(): string
    {
      if Finalized? then "ok" else "needs_clarification"
    }
  }

  /** The department-name table, looked up with the lower-cased name;
      names not in the table are kept as written. */
  function CanonicalDepartment(department: string): (r: string)
    ensures SpellsIgnoringCase(department, "dentist") ==> r == "Dentistry"
    ensures SpellsIgnoringCase(department, "cardiology") ==> r == "Cardiology"
    ensures SpellsIgnoringCase(department, "heart doctor") ==> r == "Cardiology"
    ensures (!SpellsIgnoringCase(department, "dentist") && !SpellsIgnoringCase(department, "cardiology")
             && !SpellsIgnoringCase(department, "heart doctor")) ==> r == department
  {
    LowerEqualsKey(department, "dentist");
    LowerEqualsKey(department, "cardiology");
    LowerEqualsKey(department, "heart doctor");
    var key := Lower(department);
    if key == "dentist" then "Dentistry"
    else if key == "cardiology" || key == "heart doctor" then "Cardiology"
    else department
  }

  /** A confidence that is not below the threshold. A missing key is never
      below anything in JavaScript, so it passes; `null` counts as 0 and
      fails. */
  predicate MeetsThreshold(c: Conf)
  {
    match c
    case Absent => true
    case Null => false
    case Number(v) => v >= Threshold
  }

  /** The product rule: a department, a date, and both confidences at the
      threshold or above. The time plays no part. */
  predicate Admissible(e: Entities, n: Normalized)
  {
    && Truthy(e.department) && Truthy(n.date)
    && MeetsThreshold(e.confidence) && MeetsThreshold(n.confidence)
  }

  /** `applyGuardrailsAndFinalize`. */
  function Guardrail(e: Entities, n: Normalized): (d: Decision)
    ensures d.Finalized? <==> Admissible(e, n)
    ensures d.NeedsClarification? ==> d.message == ClarificationMessage && d.Status() == "needs_clarification"
    ensures d.Finalized? ==>
      && d.Status() == "ok"
      && d.appointment.department == CanonicalDepartment(e.department.value)
      && d.appointment.date == n.date.value
      && d.appointment.time == (if Truthy(n.time) then n.time.value else DefaultTime)
      && d.appointment.tz == Timezone
  {
    if !Truthy(e.department) || !Truthy(n.date)
       || Below(e.confidence, Threshold) || Below(n.confidence, Threshold)
    then NeedsClarification(ClarificationMessage)
    else Finalized(Appointment(CanonicalDepartment(e.department.value), n.date.value,
                               Or(n.time, DefaultTime), Timezone))
  }

  /** Whether a job is accepted never depends on its time. */
  lemma GuardrailIgnoresTime(e: Entities, n: Normalized, time: Option<string>)
    ensures Guardrail(e, n).Finalized? == Guardrail(e, n.(time := time)).Finalized?
  {
  }

  /** With everything else acceptable, a numeric confidence passes exactly
      when it is at least 0.7; 0.7 itself passes. */
  lemma {:induction false} GuardrailThreshold(e: Entities, n: Normalized, v: real)
    requires Truthy(e.department) && Truthy(n.date) && MeetsThreshold(n.confidence)
    ensures Guardrail(e.(confidence := Number(v)), n).Finalized? <==> v >= 0.7
    ensures Guardrail(e, n.(confidence := Number(v))).Finalized? <==> MeetsThreshold(e.confidence) && v >= 0.7
  {
  }

  /** The JavaScript comparison lets a missing confidence through but
      stops an explicit `null`. */
  lemma GuardrailMissingConfidence(e: Entities, n: Normalized)
    requires Truthy(e.department) && Truthy(n.date) && MeetsThreshold(n.confidence)
    ensures Guardrail(e.(confidence := Absent), n).Finalized?
    ensures Guardrail(e.(confidence := Null), n).NeedsClarification?
  {
  }

  /** Examples: a missing department needs clarification; "dentist" at 0.9
      is booked in Dentistry at the default time; 0.69 is too low. */
  lemma GuardrailExamples()
    ensures Guardrail(Entities(None, Some("tomorrow"), None, Number(0.9)),
                      Normalized(Some("2025-09-25"), None, Number(0.9), Timezone))
            == NeedsClarification(ClarificationMessage)
    ensures Guardrail(Entities(Some("dentist"), Some("sep 25th"), None, Number(0.9)),
                      Normalized(Some("2025-09-25"), None, Number(0.9), Timezone))
            == Finalized(Appointment("Dentistry", "2025-09-25", "09:00:00", "Asia/Kolkata"))
    ensures Guardrail(Entities(Some("dentist"), Some("sep 25th"), None, Number(0.69)),
                      Normalized(Some("2025-09-25"), None, Number(0.9), Timezone))
            == NeedsClarification(ClarificationMessage)
  {
    assert SpellsIgnoringCase("dentist", "dentist");
  }
}

=== FILE: redelivery.dfy ===
/** The broker redelivers a message whose handler never returned. What a
    worker crash followed by redelivery leaves behind, when the outside
    world answers the second delivery as it answered the first. */
module Redelivery {
  import opened Base
  import opened Js
  import opened StatusStore
  import opened Messages
  import opened OcrProcessor
  import opened Effects
  import opened Worker

  /** Two runs that differ at most in the store they started from. */
  predicate Alike(r1: Run, r2: Run)
  {
    r1.key == r2.key && r1.trace == r2.trace && r1.inserted == r2.inserted
  }

  predicate StepsAlike(s1: Step, s2: Step)
  {
    Alike(s1.run, s2.run) && s1.error == s2.error
  }

  lemma FinalizeAlike(r1: Run, r2: Run, e: Entities, n: Normalized, o: Oracles)
    requires Valid(r1) && Valid(r2) && Alike(r1, r2) && r1.inserted.None?
    ensures StepsAlike(Finalize(r1, e, n, o), Finalize(r2, e, n, o))
  {
  }

  lemma NormalizationAlike(r1: Run, r2: Run, e: Entities, o: Oracles)
    requires Valid(r1) && Valid(r2) && Alike(r1, r2) && r1.inserted.None?
    requires QueryAi(o.extract) == Ok(e)
    ensures StepsAlike(Normalization(r1, e, o), Normalization(r2, e, o))
  {
    var x1 := Log(r1, Normalize(e.datePhrase, e.timePhrase));
    var x2 := Log(r2, Normalize(e.datePhrase, e.timePhrase));
    if QueryAi(o.normalize).Ok? {
      var n := TagTimezone(QueryAi(o.normalize).value);
      var w1, w2 := Save(x1, NormalizedFields(n), Fault(o, NormalizedWrite)), Save(x2, NormalizedFields(n), Fault(o, NormalizedWrite));
      if w1.error.None? {
        FinalizeAlike(w1.run, w2.run, e, n, o);
      }
    }
  }

  lemma ExtractionAlike(r1: Run, r2: Run, rawText: Option<string>, o: Oracles)
    requires Valid(r1) && Valid(r2) && Alike(r1, r2) && r1.inserted.None?
    ensures StepsAlike(Extraction(r1, rawText, o), Extraction(r2, rawText, o))
  {
    var x1, x2 := Log(r1, Extract(rawText)), Log(r2, Extract(rawText));
    if QueryAi(o.extract).Ok? {
      var e := QueryAi(o.extract).value;
      var w1, w2 := Save(x1, EntityFields(e), Fault(o, EntitiesWrite)), Save(x2, EntityFields(e), Fault(o, EntitiesWrite));
      if w1.error.None? {
        NormalizationAlike(w1.run, w2.run, e, o);
      }
    }
  }

  lemma AcquireAlike(r1: Run, r2: Run, m: TaskMessage, o: Oracles)
    requires Valid(r1) && Valid(r2) && Alike(r1, r2)
    ensures var a1, a2 := Acquire(r1, m, o), Acquire(r2, m, o);
      StepsAlike(a1.step, a2.step) && a1.rawText == a2.rawText
  {
    if m.kind == Some("image") {
      var x1, x2 := Log(r1, Download(m.data.s3Key)), Log(r2, Download(m.data.s3Key));
      if o.download.Some? {
        var y1, y2 := Log(x1, Recognize(o.download.value)), Log(x2, Recognize(o.download.value));
        if o.recognize.Ok? && PerformOcr(o.recognize.value).Ok? {
          var ocr := PerformOcr(o.recognize.value).value;
          var w1, w2 := Save(y1, OcrFields(ocr), Fault(o, OcrWrite)), Save(y2, OcrFields(ocr), Fault(o, OcrWrite));
          assert Acquire(r1, m, o) == Acquired(w1, Some(ocr.rawText), ocr.confidence);
          assert Acquire(r2, m, o) == Acquired(w2, Some(ocr.rawText), ocr.confidence);
        }
      }
    }
  }

  lemma ProcessAlike(s1: Store, s2: Store, m: TaskMessage, key: string, o: Oracles)
    ensures StepsAlike(Process(s1, m, key, o), Process(s2, m, key, o))
  {
    var w1 := Save(Run(key, s1, s1, [], None), ProcessingFields(), Fault(o, ProcessingWrite));
    var w2 := Save(Run(key, s2, s2, [], None), ProcessingFields(), Fault(o, ProcessingWrite));
    if w1.error.None? {
      AcquireAlike(w1.run, w2.run, m, o);
      var a1, a2 := Acquire(w1.run, m, o), Acquire(w2.run, m, o);
      if a1.step.error.None? {
        ExtractionAlike(a1.step.run, a2.step.run, a1.rawText, o);
      }
    }
  }

  /** The calls a handler makes never depend on what the store held: the
      worker writes the record but never reads it. */
  lemma HandleIgnoresStore(s1: Store, s2: Store, content: Option<TaskMessage>, o: Oracles)
    ensures var h1, h2 := Handle(s1, content, o), Handle(s2, content, o);
      h1.trace == h2.trace && h1.inserted == h2.inserted && h1.escaped == h2.escaped
  {
    if content.Some? {
      ProcessAlike(s1, s2, content.value, JobKey(Template(content.value.jobId)), o);
    }
  }

  /** A worker that stopped after any prefix of its calls, followed by a
      full redelivery: the job's record ends exactly as after one
      uninterrupted run, because every store call is a field overwrite;
      but the appointment insert is made again, so a crash after the
      insert leaves two rows for one job. */
  lemma HandleRedelivered(store: Store, m: TaskMessage, o: Oracles, n: nat)
    requires n <= |Handle(store, Some(m), o).trace|
    ensures var h := Handle(store, Some(m), o);
      var again := Handle(Replay(store, h.trace[..n]), Some(m), o);
      && again.store == h.store
      && again.trace == h.trace
      && again.inserted == h.inserted
      && (forall a :: Insert(a) in h.trace[..n] ==> Insert(a) in again.trace)
  {
    var h := Handle(store, Some(m), o);
    var crashed := Replay(store, h.trace[..n]);
    HandleIgnoresStore(store, crashed, Some(m), o);
    ReplayAgain(store, h.trace, n);
    PrefixCalls(h.trace, n);
  }

  /** A call made before the stop is a call of the whole run. */
  lemma PrefixCalls(trace: seq<Effect>, n: nat)
    requires n <= |trace|
    ensures forall e :: e in trace[..n] ==> e in trace
  {
    forall e | e in trace[..n]
      ensures e in trace
    {
      var k :| 0 <= k < n && trace[..n][k] == e;
      assert trace[k] == e;
    }
  }
}

=== FILE: schedule.dfy ===
/** The intake endpoint `POST /`: it takes an uploaded image or a JSON body
    with a `text` key, records the job as pending and queues it. */
module Intake {
  import opened Base
  import opened Js
  import opened StatusStore
  import opened Messages
  import opened Effects
  import opened Http

  const BadRequestMessage := "request must be an image file or a json object with a \"text\" key."

  const AcceptedMessage := "request isbeing processed {inside queue}"

  /** The parts of a request the handler looks at: the object key the
      upload middleware gave the file, when there is a file, and the
      body's `text`. */
  datatype Request = Request(file: Option<string>, text: Option<string>)

  /** The two kinds of job a request can start. */
  datatype Submission = ImageUpload(s3Key: string) | TextSubmission(text: string)

  /** What the broker does with a publish: the message is queued; a
      channel call throws; or the connection cannot be made and the
      process exits. */
  datatype PublishOutcome = Published | PublishThrew | BrokerDown

  /** The outside world during one request: whether the record write
      throws, and how the publish goes. */
  datatype IntakeOracles = IntakeOracles(recordWriteFails: bool, publish: PublishOutcome)

  /** What one request leaves behind. */
  datatype Intake = Intake(store: Store, trace: seq<Effect>, reply: Reply)

  /** Branch selection: a file wins over text, and text counts only when it
      is a non-empty string. */
  function Classify(req: Request): (sub: Option<Submission>)
    ensures sub.None? <==> req.file.None? && !Truthy(req.text)
    ensures req.file.Some? ==> sub == Some(ImageUpload(req.file.value))
    ensures sub.Some? && sub.value.TextSubmission? ==> req.file.None? && req.text == Some(sub.value.text)
    ensures req.file.None? && Truthy(req.text) ==> sub == Some(TextSubmission(req.text.value))
  {
    if req.file.Some? then Some(ImageUpload(req.file.value))
    else if Truthy(req.text) then Some(TextSubmission(req.text.value))
    else None
  }

  /** The record a new job starts with (timestamps left out). */
  function PendingFields(sub: Submission): Record
  {
    match sub
    case ImageUpload(s3Key) => map["status" := Str("pending"), "inputType" := Str("image"), "s3Key" := Str(s3Key)]
    case TextSubmission(text) => map["status" := Str("pending"), "inputType" := Str("text"), "rawText" := Str(text)]
  }

  /** The task message for a new job. */
  function TaskFor(jobId: string, sub: Submission): TaskMessage
  {
    match sub
    case ImageUpload(s3Key) => TaskMessage(Some(jobId), Some("image"), TaskData(Some(s3Key), None))
    case TextSubmission(text) => TaskMessage(Some(jobId), Some("text"), TaskData(None, Some(text)))
  }

  function AcceptedBody(jobId: string): Record
  {
    map["message" := Str(AcceptedMessage), "jobId" := Str(jobId)]
  }

  /** Every publish in `trace` comes after a write to the store that took
      effect. */
  predicate PublishFollowsWrite(trace: seq<Effect>)
  {
    forall k :: 0 <= k < |trace| && trace[k].Publish? ==>
      exists j :: 0 <= j < k && trace[j].Write? && trace[j].applied
  }

  /** The handler, with `jobId` the fresh id it generates. */
  function Schedule(store: Store, req: Request, jobId: string, o: IntakeOracles): (i: Intake)
    ensures i.store == Replay(store, i.trace)
    ensures PublishFollowsWrite(i.trace)
    ensures Classify(req).None? <==> i.reply == Json(400, ErrorBody(BadRequestMessage))
    ensures Classify(req).None? ==> i.trace == [] && i.store == store
    ensures Classify(req).Some? ==>
      && 1 <= |i.trace| <= 2
      && i.trace[0] == Write(JobKey(jobId), PendingFields(Classify(req).value), !o.recordWriteFails)
      && (|i.trace| == 2 <==> !o.recordWriteFails)
      && (|i.trace| == 2 ==> i.trace[1] == Publish(Queue, TaskFor(jobId, Classify(req).value), o.publish.Published?))
    ensures i.reply == Json(202, AcceptedBody(jobId)) <==>
              Classify(req).Some? && !o.recordWriteFails && o.publish.Published?
    ensures i.reply.NoReply? <==> Classify(req).Some? && !o.recordWriteFails && o.publish.BrokerDown?
    ensures Classify(req).Some? && (o.recordWriteFails || o.publish.PublishThrew?) ==>
              i.reply == Json(500, ErrorBody(ServerError))
    ensures i.reply.Json? && i.reply.code != 202 && i.reply.code != 400 ==> i.reply == Json(500, ErrorBody(ServerError))
  {
    match Classify(req)
    case None => Intake(store, [], Json(400, ErrorBody(BadRequestMessage)))
    case Some(sub) =>
      var key := JobKey(jobId);
      var write := Write(key, PendingFields(sub), !o.recordWriteFails);
      if o.recordWriteFails then Intake(store, [write], Json(500, ErrorBody(ServerError)))
      else
        var stored := HSet(store, key, PendingFields(sub));
        var publish := Publish(Queue, TaskFor(jobId, sub), o.publish.Published?);
        var reply := match o.publish
          case Published => Json(202, AcceptedBody(jobId))
          case PublishThrew => Json(500, ErrorBody(ServerError))
          case BrokerDown => NoReply;
        assert PublishFollowsWrite([write, publish]) by {
          assert [write, publish][0].Write?;
        }
        assert Replay(store, [write, publish]) == stored by {
          assert [write, publish][1..] == [publish];
          assert Replay(store, [write, publish]) == Replay(stored, [publish]);
          assert [publish][1..] == [];
          assert Replay(stored, [publish]) == Replay(stored, []);
        }
        Intake(stored, [write, publish], reply)
  }

  /** The queued message names the job whose record was written, with
      the same type and the same input the record holds. */
  lemma MessageAgreesWithRecord(jobId: string, sub: Submission)
    ensures var m, rec := TaskFor(jobId, sub), PendingFields(sub);
      && m.jobId.Some? && JobKey(m.jobId.value) == JobKey(jobId)
      && m.kind.Some? && rec["inputType"] == Str(m.kind.value)
      && (m.kind == Some("image") ==> m.data.s3Key.Some? && rec["s3Key"] == Str(m.data.s3Key.value))
      && (m.kind == Some("text") ==> m.data.rawText.Some? && rec["rawText"] == Str(m.data.rawText.value))
      && rec["status"] == Str("pending")
  {
  }

  /** Once the record is written, a failed publish leaves it pending:
      the job is recorded but never queued. */
  lemma PublishFailureLeavesPending(store: Store, req: Request, jobId: string, o: IntakeOracles)
    requires Classify(req).Some? && !o.recordWriteFails && !o.publish.Published?
    ensures var i := Schedule(store, req, jobId, o);
      && Holds(HGetAll(i.store, JobKey(jobId)), PendingFields(Classify(req).value))
      && !i.trace[1].sent
      && i.reply != Json(202, AcceptedBody(jobId))
  {
  }

  /** An empty text body is refused like a missing one; an image wins
      over any text. */
  lemma ScheduleExamples(store: Store, jobId: string, o: IntakeOracles)
    ensures Schedule(store, Request(None, Some("")), jobId, o).reply == Json(400, ErrorBody(BadRequestMessage))
    ensures Schedule(store, Request(None, None), jobId, o).trace == []
    ensures Classify(Request(Some("uploads/a.png"), Some("tomorrow 10am dentist")))
            == Some(ImageUpload("uploads/a.png"))
  {
  }
}

=== FILE: status.dfy ===
/** The status endpoint `GET /:jobId`: the job's record, read as it is. */
module StatusRoute {
  import opened StatusStore
  import opened Messages
  import opened Effects
  import opened Http

  const NotFoundMessage := "job is not in Redis."

  /** What one lookup leaves behind. */
  datatype Lookup = Lookup(trace: seq<Effect>, reply: Reply)

  /** The handler; `readFails` says whether `hGetAll` throws. */
  function StatusOf(store: Store, jobId: string, readFails: bool): (l: Lookup)
    ensures l.trace == [Read(JobKey(jobId))]
    ensures l.reply.Json?
    ensures l.reply.code == 200 <==> !readFails && HGetAll(store, JobKey(jobId)) != map[]
    ensures l.reply.code == 200 ==> l.reply.body == HGetAll(store, JobKey(jobId))
    ensures l.reply.code == 404 <==> !readFails && HGetAll(store, JobKey(jobId)) == map[]
    ensures l.reply.code == 404 ==> l.reply.body == ErrorBody(NotFoundMessage)
    ensures readFails ==> l.reply == Json(500, ErrorBody(ServerError))
  {
    var rec := HGetAll(store, JobKey(jobId));
    var reply :=
      if readFails then Json(500, ErrorBody(ServerError))
      else if |rec| == 0 then Json(404, ErrorBody(NotFoundMessage))
      else Json(200, rec);
    Lookup([Read(JobKey(jobId))], reply)
  }

  /** A lookup changes nothing in the store. */
  lemma StatusIsReadOnly(store: Store, jobId: string, readFails: bool)
    ensures ReadOnly(StatusOf(store, jobId, readFails).trace)
    ensures Replay(store, StatusOf(store, jobId, readFails).trace) == store
  {
    ReplayReadOnly(store, StatusOf(store, jobId, readFails).trace);
  }
}

=== FILE: status_store.dfy ===
/** The Redis hashes that hold one record per job. */
module StatusStore {

  /** A hash field. Redis keeps the decimal text of a number; the model
      keeps the number itself. */
  datatype Value = Str(text: string) | Num(number: real)

  /** One hash: field name to value. */
  type Record = map<string, Value>

  /** The key space: key to hash. A key that holds no hash reads as empty. */
  type Store = map<string, Record>

  /** `hGetAll(key)`: the hash at `key`, or the empty hash. */
  function HGetAll(store: Store, key: string): Record
  {
    if key in store then store[key] else map[]
  }

  /** `hSet(key, fields)`: the named fields are set, every other field and
      every other key keeps its value, and nothing is removed. */
  function HSet(store: Store, key: string, fields: Record): (s: Store)
    ensures s.Keys == store.Keys + {key}
    ensures forall k :: k in store && k != key ==> s[k] == store[k]
    ensures s[key].Keys == HGetAll(store, key).Keys + fields.Keys
    ensures forall f :: f in fields ==> s[key][f] == fields[f]
    ensures forall f :: f in HGetAll(store, key) && f !in fields ==> s[key][f] == HGetAll(store, key)[f]
  {
    store[key := HGetAll(store, key) + fields]
  }

  /** Every field of `fields` is in `rec` with the same value. */
  predicate Holds(rec: Record, fields: Record)
  {
    forall f :: f in fields ==> f in rec && rec[f] == fields[f]
  }

  /** `s'` holds every key of `s`, and every field of each of its hashes. */
  ghost predicate Extends(s: Store, s': Store)
  {
    forall k :: k in s ==> k in s' && s[k].Keys <= s'[k].Keys
  }

  lemma HSetExtends(store: Store, key: string, fields: Record)
    ensures Extends(store, HSet(store, key, fields))
  {
  }

  lemma ExtendsTransitive(a: Store, b: Store, c: Store)
    requires Extends(a, b) && Extends(b, c)
    ensures Extends(a, c)
  {
  }

  /** Repeating a write with the same values changes nothing. */
  lemma HSetIdempotent(store: Store, key: string, fields: Record)
    ensures HSet(HSet(store, key, fields), key, fields) == HSet(store, key, fields)
  {
    var once := HSet(store, key, fields);
    assert once[key] + fields == once[key];
  }

  /** `d` laid over `s`: every hash of `d` merged into the hash of `s` at
      the same key. */
  function Overlay(s: Store, d: Store): (r: Store)
    ensures r.Keys == s.Keys + d.Keys
  {
    map k | k in s.Keys + d.Keys :: HGetAll(s, k) + HGetAll(d, k)
  }

  /** Reading an overlaid store merges the two hashes. */
  lemma OverlayAt(s: Store, d: Store, k: string)
    ensures HGetAll(Overlay(s, d), k) == HGetAll(s, k) + HGetAll(d, k)
  {
    if k !in s && k !in d {
      MergeEmpty(map[]);
    }
  }

  lemma MergeEmpty(x: Record)
    ensures x + map[] == x && map[] + x == x
  {
    assert (x + map[]).Keys == x.Keys;
    assert (map[] + x).Keys == x.Keys;
  }

  lemma MergeAssociative(x: Record, y: Record, z: Record)
    ensures (x + y) + z == x + (y + z)
  {
    var l, r := (x + y) + z, x + (y + z);
    assert l.Keys == r.Keys;
    forall f | f in l
      ensures l[f] == r[f]
    {
    }
  }

  lemma MergeSelf(x: Record)
    ensures x + x == x
  {
    assert (x + x).Keys == x.Keys;
  }

  /** `hSet` lays a one-hash store over the store. */
  lemma HSetIsOverlay(store: Store, key: string, fields: Record)
    ensures HSet(store, key, fields) == Overlay(store, map[key := fields])
  {
    var l, r := HSet(store, key, fields), Overlay(store, map[key := fields]);
    assert l.Keys == r.Keys;
    forall k | k in l
      ensures l[k] == r[k]
    {
      if k != key {
        MergeEmpty(store[k]);
      }
    }
  }

  lemma OverlayAssociative(a: Store, b: Store, c: Store)
    ensures Overlay(Overlay(a, b), c) == Overlay(a, Overlay(b, c))
  {
    var l, r := Overlay(Overlay(a, b), c), Overlay(a, Overlay(b, c));
    assert l.Keys == r.Keys;
    forall k | k in l
      ensures l[k] == r[k]
    {
      OverlayAt(a, b, k);
      OverlayAt(b, c, k);
      OverlayAt(Overlay(a, b), c, k);
      OverlayAt(a, Overlay(b, c), k);
      MergeAssociative(HGetAll(a, k), HGetAll(b, k), HGetAll(c, k));
    }
  }

  /** Laying the same writes over twice is laying them once. */
  lemma OverlayAbsorbs(a: Store, d: Store)
    ensures Overlay(Overlay(a, d), d) == Overlay(a, d)
  {
    OverlayAssociative(a, d, d);
    var dd := Overlay(d, d);
    assert dd.Keys == d.Keys;
    forall k | k in dd
      ensures dd[k] == d[k]
    {
      MergeSelf(d[k]);
    }
  }

  lemma OverlayEmpty(s: Store)
    ensures Overlay(map[], s) == s && Overlay(s, map[]) == s
  {
    var l, r := Overlay(map[], s), Overlay(s, map[]);
    assert l.Keys == s.Keys && r.Keys == s.Keys;
    forall k | k in s
      ensures l[k] == s[k] && r[k] == s[k]
    {
      MergeEmpty(s[k]);
    }
  }
}

=== FILE: worker.dfy ===
/** The worker's message handler: one task message driven through text
    acquisition, entity extraction, normalisation, the guardrail and the
    appointment insert, with the job's status record updated after each
    stage that produces data. The outside world is given as oracle outcomes. */
module Worker {
  import opened Base
  import opened Js
  import opened StatusStore
  import opened Messages
  import opened OcrProcessor
  import opened Effects

  const S3Failure := "failed to get image from s3."

  /** The status-store writes of one job, in the order they are made. */
  datatype WriteStage = ProcessingWrite | OcrWrite | EntitiesWrite | NormalizedWrite
                      | CompletedWrite | FailedWrite

  /** What the outside world answers while one message is handled. */
  datatype Oracles = Oracles(
    download: Option<Bytes>,                 // the image, or null when the fetch failed
    recognize: Result<OcrData>,              // the OCR engine's report, or what it threw
    extract: AiCall<Entities>,               // the entity-extraction reply
    normalize: AiCall<NormReply>,            // the normalisation reply
    insert: Result<int>,                     // the new row's id, or the database error
    storeFaults: map<WriteStage, string>)    // the writes that throw, with their message

  function Fault(o: Oracles, stage: WriteStage): Option<string>
  {
    if stage in o.storeFaults then Some(o.storeFaults[stage]) else None
  }

  function UnsupportedType(kind: Option<string>): string
  {
    "unsupported input job type: " + Template(kind)
  }

  // ------------------------------------------------------------ records

  function ProcessingFields(): Record
  {
    map["status" := Str("processing")]
  }

  function OcrFields(ocr: OcrResult): Record
  {
    map["step1_ocr_text" := Str(ocr.rawText), "step1_ocr_confidence" := Num(ocr.confidence)]
  }

  /** Step-2 fields: a missing or empty phrase is stored as "N/A", a missing
      confidence as 0. */
  function EntityFields(e: Entities): (r: Record)
    ensures r.Keys == {"step2_entity_department", "step2_entity_date_phrase",
                       "step2_entity_time_phrase", "step2_entity_confidence"}
    ensures r["step2_entity_department"] == Str(if Truthy(e.department) then e.department.value else "N/A")
    ensures r["step2_entity_date_phrase"] == Str(if Truthy(e.datePhrase) then e.datePhrase.value else "N/A")
    ensures r["step2_entity_time_phrase"] == Str(if Truthy(e.timePhrase) then e.timePhrase.value else "N/A")
    ensures r["step2_entity_confidence"] == Num(if e.confidence.Number? then e.confidence.value else 0.0)
  {
    map["step2_entity_department" := Str(Or(e.department, "N/A")),
        "step2_entity_date_phrase" := Str(Or(e.datePhrase, "N/A")),
        "step2_entity_time_phrase" := Str(Or(e.timePhrase, "N/A")),
        "step2_entity_confidence" := Num(OrZero(e.confidence))]
  }

  /** Step-3 fields, with the same substitutions. */
  function NormalizedFields(n: Normalized): (r: Record)
    ensures r.Keys == {"step3_normalized_date", "step3_normalized_time", "step3_normalized_confidence"}
    ensures r["step3_normalized_date"] == Str(if Truthy(n.date) then n.date.value else "N/A")
    ensures r["step3_normalized_time"] == Str(if Truthy(n.time) then n.time.value else "N/A")
    ensures r["step3_normalized_confidence"] == Num(if n.confidence.Number? then n.confidence.value else 0.0)
  {
    map["step3_normalized_date" := Str(Or(n.date, "N/A")),
        "step3_normalized_time" := Str(Or(n.time, "N/A")),
        "step3_normalized_confidence" := Num(OrZero(n.confidence))]
  }

  function CompletedFields(id: int, a: Appointment): Record
  {
    map["status" := Str("completed"), "appointmentId" := Num(id as real),
        "result_department" := Str(a.department), "result_date" := Str(a.date),
        "result_time" := Str(a.time)]
  }

  function FailedFields(message: string): Record
  {
    map["status" := Str("failed"), "errorMessage" := Str(message)]
  }

  // ---------------------------------------------------------- running

  /** The state while the message for the job at `key` is handled: the
      store as it was when handling began, the store now, the calls made so
      far, and the appointment inserted, if any. */
  datatype Run = Run(key: string, initial: Store, store: Store, trace: seq<Effect>,
                     inserted: Option<Appointment>)

  /** A run, and the message of the error thrown, if one was. */
  datatype Step = Step(run: Run, error: Option<string>)

  /** The store is the initial one with the logged writes replayed, every
      write went to the job's own key, and an inserted appointment was
      logged. */
  ghost predicate Valid(r: Run)
  {
    && r.store == Replay(r.initial, r.trace) && WritesOnlyTo(r.trace, r.key)
    && (r.inserted.Some? ==> Insert(r.inserted.value) in r.trace)
  }

  /** `r'` extends `r`: same job, same start, more calls. */
  ghost predicate Grows(r: Run, r': Run)
  {
    r'.key == r.key && r'.initial == r.initial && r.trace <= r'.trace && Valid(r')
  }

  /** Record a call that does not touch the store. */
  function Log(r: Run, e: Effect): (r': Run)
    requires Valid(r) && !e.Write?
    ensures Grows(r, r') && r'.inserted == r.inserted
    ensures r'.trace == r.trace + [e]
    ensures forall x :: x in r'.trace ==> x in r.trace || x == e
  {
    ReplaySnoc(r.initial, r.trace, e);
    r.(trace := r.trace + [e])
  }

  /** `hSet(key, fields)` on the job's key, which throws `fault` when there
      is one. */
  function Save(r: Run, fields: Record, fault: Option<string>): (s: Step)
    requires Valid(r)
    ensures Grows(r, s.run) && s.run.inserted == r.inserted
    ensures s.run.trace == r.trace + [Write(r.key, fields, fault.None?)]
    ensures forall x :: x in s.run.trace ==> x in r.trace || x.Write?
    ensures s.error == fault
    ensures fault.None? ==> s.run.store == HSet(r.store, r.key, fields)
    ensures fault.Some? ==> s.run.store == r.store
  {
    var e := Write(r.key, fields, fault.None?);
    ReplaySnoc(r.initial, r.trace, e);
    Step(r.(store := Apply(r.store, e), trace := r.trace + [e]), fault)
  }

  /** The text a job works on, and its confidence. */
  datatype Acquired = Acquired(step: Step, rawText: Option<string>, confidence: real)

  /** Stage 1: the text of an image job comes from the object store and
      the OCR engine and is saved; a text job's text is the message's own,
      with confidence 1; any other type is refused. */
  function Acquire(r: Run, m: TaskMessage, o: Oracles): (a: Acquired)
    requires Valid(r)
    ensures Grows(r, a.step.run) && a.step.run.inserted == r.inserted
    ensures forall x :: x in a.step.run.trace ==> x in r.trace || !x.Insert?
    ensures m.kind == Some("text") ==> a == Acquired(Step(r, None), m.data.rawText, 1.0)
    ensures m.kind != Some("text") && m.kind != Some("image") ==>
              a.step == Step(r, Some(UnsupportedType(m.kind)))
    ensures m.kind == Some("image") && o.download.None? ==>
              a.step.error == Some(S3Failure) && a.step.run.trace == r.trace + [Download(m.data.s3Key)]
    ensures m.kind == Some("image") && o.download.Some? && o.recognize.Err? ==>
              a.step.error == Some(o.recognize.message)
    ensures m.kind == Some("image") && o.download.Some? && o.recognize.Ok? && PerformOcr(o.recognize.value).Err? ==>
              a.step.error == Some(NoTextFound)
    ensures m.kind == Some("image") && o.download.Some? && o.recognize.Ok? && PerformOcr(o.recognize.value).Ok? ==>
              var ocr := PerformOcr(o.recognize.value).value;
              && a.step.error == Fault(o, OcrWrite) && a.rawText == Some(ocr.rawText)
              && a.step.run.trace == r.trace + [Download(m.data.s3Key)] + [Recognize(o.download.value)]
                                     + [Write(r.key, OcrFields(ocr), Fault(o, OcrWrite).None?)]
  {
    if m.kind == Some("image") then
      var r1 := Log(r, Download(m.data.s3Key));
      match o.download
      case None => Acquired(Step(r1, Some(S3Failure)), None, 0.0)
      case Some(image) =>
        var r2 := Log(r1, Recognize(image));
        match o.recognize
        case Err(e) => Acquired(Step(r2, Some(e)), None, 0.0)
        case Ok(data) =>
          match PerformOcr(data)
          case Err(e) => Acquired(Step(r2, Some(e)), None, 0.0)
          case Ok(ocr) => Acquired(Save(r2, OcrFields(ocr), Fault(o, OcrWrite)), Some(ocr.rawText), ocr.confidence)
    else if m.kind == Some("text") then Acquired(Step(r, None), m.data.rawText, 1.0)
    else Acquired(Step(r, Some(UnsupportedType(m.kind))), None, 0.0)
  }

  /** The appointment the guardrail finalises from the two AI replies, when
      both parse and it does. */
  predicate Justifies(o: Oracles, a: Appointment)
  {
    && QueryAi(o.extract).Ok? && QueryAi(o.normalize).Ok?
    && Guardrail(QueryAi(o.extract).value, TagTimezone(QueryAi(o.normalize).value)) == Finalized(a)
  }

  /** The record of a job that completed with row `id` for `a`. */
  predicate CompletedWith(rec: Record, id: int, a: Appointment)
  {
    Holds(rec, CompletedFields(id, a))
  }

  /** What a run that ends without error has achieved. */
  predicate Succeeded(s: Step, o: Oracles)
  {
    s.error.None? ==>
      (s.run.inserted.Some? && o.insert.Ok?
       && CompletedWith(HGetAll(s.run.store, s.run.key), o.insert.value, s.run.inserted.value))
  }

  /** Stages 4 and 5: a finalised appointment is inserted and the record
      completed with it; a clarification request is thrown. */
  function Finalize(r: Run, e: Entities, n: Normalized, o: Oracles): (s: Step)
    requires Valid(r) && r.inserted.None?
    ensures Grows(r, s.run)
    ensures s.run.inserted.Some? ==> Guardrail(e, n) == Finalized(s.run.inserted.value) && o.insert.Ok?
    ensures Succeeded(s, o)
    ensures Guardrail(e, n).NeedsClarification? ==> s == Step(r, Some(ClarificationMessage))
    ensures forall a :: Insert(a) in s.run.trace ==> Insert(a) in r.trace || Guardrail(e, n) == Finalized(a)
    ensures Guardrail(e, n).Finalized? && o.insert.Err? ==>
              && s.error == Some(o.insert.message) && s.run.inserted.None?
              && s.run.trace == r.trace + [Insert(Guardrail(e, n).appointment)]
    ensures Guardrail(e, n).Finalized? && o.insert.Ok? ==>
              s.run.inserted == Some(Guardrail(e, n).appointment) && s.error == Fault(o, CompletedWrite)
    ensures forall a :: Insert(a) in s.run.trace && o.insert.Ok? ==> Insert(a) in r.trace || s.run.inserted == Some(a)
  {
    match Guardrail(e, n)
    case NeedsClarification(message) => Step(r, Some(message))
    case Finalized(appointment) =>
      var r1 := Log(r, Insert(appointment));
      match o.insert
      case Err(error) => Step(r1, Some(error))
      case Ok(id) => Save(r1.(inserted := Some(appointment)), CompletedFields(id, appointment), Fault(o, CompletedWrite))
  }

  /** Stage 3 and on: normalise the phrases, save the result, finalise. */
  function Normalization(r: Run, e: Entities, o: Oracles): (s: Step)
    requires Valid(r) && r.inserted.None?
    requires QueryAi(o.extract) == Ok(e)
    ensures Grows(r, s.run)
    ensures s.run.inserted.Some? ==> Justifies(o, s.run.inserted.value) && o.insert.Ok?
    ensures Succeeded(s, o)
    ensures forall a :: Insert(a) in s.run.trace ==> Insert(a) in r.trace || Justifies(o, a)
    ensures forall a :: Insert(a) in s.run.trace && o.insert.Ok? ==> Insert(a) in r.trace || s.run.inserted == Some(a)
    ensures QueryAi(o.normalize).Err? ==>
              s.error == Some(AiInvalidJson) && s.run.inserted.None?
              && s.run.trace == r.trace + [Normalize(e.datePhrase, e.timePhrase)]
    ensures QueryAi(o.normalize).Ok? && NormalizedWrite in o.storeFaults ==>
              && s.error == Some(o.storeFaults[NormalizedWrite]) && s.run.inserted.None?
              && s.run.trace == r.trace + [Normalize(e.datePhrase, e.timePhrase)]
                                + [Write(r.key, NormalizedFields(TagTimezone(QueryAi(o.normalize).value)), false)]
  {
    var r1 := Log(r, Normalize(e.datePhrase, e.timePhrase));
    match QueryAi(o.normalize)
    case Err(error) => Step(r1, Some(error))
    case Ok(reply) =>
      var n := TagTimezone(reply);
      var w := Save(r1, NormalizedFields(n), Fault(o, NormalizedWrite));
      if w.error.Some? then w else Finalize(w.run, e, n, o)
  }

  /** Stage 2 and on: extract the entities, save them, go on. */
  function Extraction(r: Run, rawText: Option<string>, o: Oracles): (s: Step)
    requires Valid(r) && r.inserted.None?
    ensures Grows(r, s.run)
    ensures s.run.inserted.Some? ==> Justifies(o, s.run.inserted.value) && o.insert.Ok?
    ensures Succeeded(s, o)
    ensures forall a :: Insert(a) in s.run.trace ==> Insert(a) in r.trace || Justifies(o, a)
    ensures forall a :: Insert(a) in s.run.trace && o.insert.Ok? ==> Insert(a) in r.trace || s.run.inserted == Some(a)
    ensures QueryAi(o.extract).Err? ==>
              s.error == Some(AiInvalidJson) && s.run.inserted.None? && s.run.trace == r.trace + [Extract(rawText)]
    ensures QueryAi(o.extract).Ok? && EntitiesWrite in o.storeFaults ==>
              && s.error == Some(o.storeFaults[EntitiesWrite]) && s.run.inserted.None?
              && s.run.trace == r.trace + [Extract(rawText)] + [Write(r.key, EntityFields(QueryAi(o.extract).value), false)]
  {
    var r1 := Log(r, Extract(rawText));
    match QueryAi(o.extract)
    case Err(error) => Step(r1, Some(error))
    case Ok(entities) =>
      var w := Save(r1, EntityFields(entities), Fault(o, EntitiesWrite));
      if w.error.Some? then w else Normalization(w.run, entities, o)
  }

  /** The body of the handler's `try` block: mark the job processing, then
      run the stages. */
  function Process(store: Store, m: TaskMessage, key: string, o: Oracles): (s: Step)
    ensures s.run.key == key && s.run.initial == store && Valid(s.run)
    ensures |s.run.trace| > 0 && s.run.trace[0] == Write(key, ProcessingFields(), Fault(o, ProcessingWrite).None?)
    ensures s.run.inserted.Some? ==> Justifies(o, s.run.inserted.value) && o.insert.Ok?
    ensures Succeeded(s, o)
    ensures forall a :: Insert(a) in s.run.trace ==> Justifies(o, a)
    ensures forall a :: Insert(a) in s.run.trace && o.insert.Ok? ==> s.run.inserted == Some(a)
  {
    var w := Save(Run(key, store, store, [], None), ProcessingFields(), Fault(o, ProcessingWrite));
    if w.error.Some? then w
    else
      var a := Acquire(w.run, m, o);
      if a.step.error.Some? then a.step else Extraction(a.step.run, a.rawText, o)
  }

  /** What handling one message leaves behind. `escaped` is set when the
      handler itself throws: the message was not valid JSON, or recording
      the failure failed too. The consumer acknowledges the message only
      when the handler returns normally. */
  datatype Handled = Handled(store: Store, trace: seq<Effect>, inserted: Option<Appointment>, escaped: bool)

  /** A write that marks `key` failed. */
  predicate IsFailureWrite(e: Effect, key: string)
  {
    e.Write? && e.key == key && "status" in e.fields && e.fields["status"] == Str("failed")
  }

  /** `handleMessage`. `content` is the decoded message, `None` when
      `JSON.parse` throws or the message parses to `null` (destructuring
      `null` throws too); both happen before the `try`, so nothing is
      written. Inside the `try`, every thrown error ends in a `failed`
      record carrying its message, unless recording the failure throws
      too (`escaped`). */
  function Handle(store: Store, content: Option<TaskMessage>, o: Oracles): (h: Handled)
    ensures h.store == Replay(store, h.trace)
    ensures content.None? ==> h == Handled(store, [], None, true)
    ensures content.Some? ==>
      var key := JobKey(Template(content.value.jobId));
      && WritesOnlyTo(h.trace, key)
      && |h.trace| > 0 && h.trace[0] == Write(key, ProcessingFields(), Fault(o, ProcessingWrite).None?)
      && (h.escaped ==> Fault(o, FailedWrite).Some?
                        && IsFailureWrite(h.trace[|h.trace| - 1], key) && !h.trace[|h.trace| - 1].applied)
    ensures h.inserted.Some? ==>
      content.Some? && Justifies(o, h.inserted.value) && o.insert.Ok? && Insert(h.inserted.value) in h.trace
    ensures forall a :: Insert(a) in h.trace ==> Justifies(o, a)
    ensures forall a :: Insert(a) in h.trace && o.insert.Ok? ==> h.inserted == Some(a)
  {
    match content
    case None => Handled(store, [], None, true)
    case Some(m) =>
      var s := Process(store, m, JobKey(Template(m.jobId)), o);
      match s.error
      case None => Handled(s.run.store, s.run.trace, s.run.inserted, false)
      case Some(error) =>
        var f := Save(s.run, FailedFields(error), Fault(o, FailedWrite));
        Handled(f.run.store, f.run.trace, f.run.inserted, f.error.Some?)
  }
}

=== FILE: worker_properties.dfy ===
/** What handling one message guarantees about the job's record, the
    calls made, and the appointment table. */
module WorkerProperties {
  import opened Base
  import opened Js
  import opened StatusStore
  import opened Messages
  import opened OcrProcessor
  import opened Effects
  import opened Worker
  import opened JsStrings

  /** A handler that returns normally leaves the job `completed` or
      `failed`, never `processing`. */
  lemma HandleEndsTerminal(store: Store, m: TaskMessage, o: Oracles)
    ensures var h := Handle(store, Some(m), o);
      var rec := HGetAll(h.store, JobKey(Template(m.jobId)));
      !h.escaped ==>
        "status" in rec && (rec["status"] == Str("completed") || rec["status"] == Str("failed"))
  {
    var key := JobKey(Template(m.jobId));
    var s := Process(store, m, key, o);
    HandleOutcome(store, m, o);
    if s.error.None? {
      var done := CompletedFields(o.insert.value, s.run.inserted.value);
      assert CompletedWith(HGetAll(s.run.store, key), o.insert.value, s.run.inserted.value);
      assert "status" in done && done["status"] == Str("completed");
    } else if FailedWrite !in o.storeFaults {
      HandleFailureRecorded(store, m, o);
      var failed := FailedFields(s.error.value);
      assert "status" in failed && failed["status"] == Str("failed");
    }
  }

  /** How the handler's result follows from its `try` block: a run
      without error is returned as it stands, and an error escapes only
      when recording it throws. */
  lemma HandleOutcome(store: Store, m: TaskMessage, o: Oracles)
    ensures var s := Process(store, m, JobKey(Template(m.jobId)), o);
      var h := Handle(store, Some(m), o);
      && (s.error.None? ==> h == Handled(s.run.store, s.run.trace, s.run.inserted, false))
      && (s.error.Some? ==> h.escaped == (FailedWrite in o.storeFaults))
  {
  }

  /** A `completed` record left by a normally returning handler names the
      appointment this run inserted and the row id the database gave it. */
  lemma HandleCompleted(store: Store, m: TaskMessage, o: Oracles)
    ensures var h := Handle(store, Some(m), o);
      var rec := HGetAll(h.store, JobKey(Template(m.jobId)));
      !h.escaped && "status" in rec && rec["status"] == Str("completed") ==>
        h.inserted.Some? && o.insert.Ok? && CompletedWith(rec, o.insert.value, h.inserted.value)
  {
    var key := JobKey(Template(m.jobId));
    var s := Process(store, m, key, o);
    var h := Handle(store, Some(m), o);
    if s.error.Some? {
      var f := Save(s.run, FailedFields(s.error.value), Fault(o, FailedWrite));
      assert h.store == f.run.store && h.escaped == f.error.Some?;
      assert "status" in FailedFields(s.error.value);
    }
  }

  /** Handling a message only adds or overwrites fields of its own job's
      record: no key and no field disappears, other jobs are untouched,
      and every field a successful write set is still there at the end,
      so a failed record keeps the stage results written before the
      failure. */
  lemma HandleOnlyMerges(store: Store, m: TaskMessage, o: Oracles, other: string)
    requires other != JobKey(Template(m.jobId))
    ensures var h := Handle(store, Some(m), o);
      && Extends(store, h.store)
      && HGetAll(h.store, other) == HGetAll(store, other)
      && forall i :: 0 <= i < |h.trace| && h.trace[i].Write? && h.trace[i].applied ==>
           h.trace[i].fields.Keys <= HGetAll(h.store, JobKey(Template(m.jobId))).Keys
  {
    var h := Handle(store, Some(m), o);
    var key := JobKey(Template(m.jobId));
    ReplayExtends(store, h.trace);
    ReplayOtherKeys(store, h.trace, key, other);
    forall i | 0 <= i < |h.trace| && h.trace[i].Write? && h.trace[i].applied
      ensures h.trace[i].fields.Keys <= HGetAll(h.store, key).Keys
    {
      ReplayKeepsWrittenFields(store, h.trace, i);
    }
  }

  /** If the first write throws, no external service is called: the
      handler goes straight to recording the failure. */
  lemma HandleProcessingWriteFails(store: Store, m: TaskMessage, o: Oracles)
    requires ProcessingWrite in o.storeFaults && FailedWrite !in o.storeFaults
    ensures var h := Handle(store, Some(m), o);
      var key := JobKey(Template(m.jobId));
      && h.trace == [Write(key, ProcessingFields(), false),
                     Write(key, FailedFields(o.storeFaults[ProcessingWrite]), true)]
      && h.inserted.None? && !h.escaped
  {
  }

  /** A job of any other type than image or text fails with a message
      naming the type, before any external call. */
  lemma HandleUnsupportedType(store: Store, m: TaskMessage, o: Oracles)
    requires m.kind != Some("image") && m.kind != Some("text")
    requires ProcessingWrite !in o.storeFaults && FailedWrite !in o.storeFaults
    ensures var h := Handle(store, Some(m), o);
      var key := JobKey(Template(m.jobId));
      && h.trace == [Write(key, ProcessingFields(), true),
                     Write(key, FailedFields(UnsupportedType(m.kind)), true)]
      && h.inserted.None? && !h.escaped
      && Holds(HGetAll(h.store, key), FailedFields(UnsupportedType(m.kind)))
  {
    assert "status" in FailedFields(UnsupportedType(m.kind));
  }

  /** An image that cannot be fetched fails the job with the retrieval
      message; OCR, the AI and the database are never called. */
  lemma HandleImageMissing(store: Store, m: TaskMessage, o: Oracles)
    requires m.kind == Some("image") && o.download.None?
    requires ProcessingWrite !in o.storeFaults && FailedWrite !in o.storeFaults
    ensures var h := Handle(store, Some(m), o);
      var key := JobKey(Template(m.jobId));
      && h.trace == [Write(key, ProcessingFields(), true), Download(m.data.s3Key),
                     Write(key, FailedFields(S3Failure), true)]
      && h.inserted.None? && !h.escaped
      && Holds(HGetAll(h.store, key), FailedFields(S3Failure))
  {
  }

  // ------------------------------------------------- stage by stage

  /** Extraction that parses and saves hands on to normalisation. */
  lemma ExtractionPassesOn(r: Run, rawText: Option<string>, o: Oracles, e: Entities)
    requires Valid(r) && r.inserted.None? && EntitiesWrite !in o.storeFaults
    requires QueryAi(o.extract) == Ok(e)
    ensures var w := Save(Log(r, Extract(rawText)), EntityFields(e), None);
      w.run.inserted.None? && Extraction(r, rawText, o) == Normalization(w.run, e, o)
  {
  }

  /** Normalisation that parses and saves hands on to the guardrail. */
  lemma NormalizationPassesOn(r: Run, o: Oracles, e: Entities, reply: NormReply)
    requires Valid(r) && r.inserted.None? && NormalizedWrite !in o.storeFaults
    requires QueryAi(o.extract) == Ok(e) && QueryAi(o.normalize) == Ok(reply)
    ensures var w := Save(Log(r, Normalize(e.datePhrase, e.timePhrase)), NormalizedFields(TagTimezone(reply)), None);
      w.run.inserted.None? && Normalization(r, e, o) == Finalize(w.run, e, TagTimezone(reply), o)
  {
  }

  /** Stages 4 and 5 when the insert and the last write succeed. */
  lemma FinalizeCompletes(r: Run, o: Oracles, e: Entities, n: Normalized, a: Appointment, id: int)
    returns (s: Step)
    requires Valid(r) && r.inserted.None? && CompletedWrite !in o.storeFaults
    requires Guardrail(e, n) == Finalized(a) && o.insert == Ok(id)
    ensures s == Finalize(r, e, n, o)
    ensures s.error.None? && s.run.inserted == Some(a)
    ensures s.run.trace == r.trace + [Insert(a)] + [Write(r.key, CompletedFields(id, a), true)]
    ensures s.run.store == HSet(r.store, r.key, CompletedFields(id, a))
  {
    s := Save(Log(r, Insert(a)).(inserted := Some(a)), CompletedFields(id, a), None);
  }

  /** Stages 3 to 5 when every call succeeds and the guardrail passes. */
  lemma NormalizationCompletes(r: Run, o: Oracles, e: Entities, reply: NormReply, a: Appointment, id: int)
    returns (s: Step)
    requires Valid(r) && r.inserted.None? && o.storeFaults == map[]
    requires QueryAi(o.extract) == Ok(e) && QueryAi(o.normalize) == Ok(reply)
    requires Guardrail(e, TagTimezone(reply)) == Finalized(a) && o.insert == Ok(id)
    ensures s == Normalization(r, e, o)
    ensures s.error.None? && s.run.inserted == Some(a)
    ensures s.run.trace == r.trace + [Normalize(e.datePhrase, e.timePhrase)]
                           + [Write(r.key, NormalizedFields(TagTimezone(reply)), true)]
                           + [Insert(a)] + [Write(r.key, CompletedFields(id, a), true)]
  {
    var w := Save(Log(r, Normalize(e.datePhrase, e.timePhrase)), NormalizedFields(TagTimezone(reply)), None);
    NormalizationPassesOn(r, o, e, reply);
    s := FinalizeCompletes(w.run, o, e, TagTimezone(reply), a, id);
  }

  /** Stages 2 to 5 when every call succeeds and the guardrail passes. */
  lemma ExtractionCompletes(r: Run, rawText: Option<string>, o: Oracles, e: Entities,
                            reply: NormReply, a: Appointment, id: int) returns (s: Step)
    requires Valid(r) && r.inserted.None? && o.storeFaults == map[]
    requires QueryAi(o.extract) == Ok(e) && QueryAi(o.normalize) == Ok(reply)
    requires Guardrail(e, TagTimezone(reply)) == Finalized(a) && o.insert == Ok(id)
    ensures s == Extraction(r, rawText, o)
    ensures s.error.None? && s.run.inserted == Some(a)
    ensures s.run.trace == r.trace + [Extract(rawText)] + [Write(r.key, EntityFields(e), true)]
                           + [Normalize(e.datePhrase, e.timePhrase)]
                           + [Write(r.key, NormalizedFields(TagTimezone(reply)), true)]
                           + [Insert(a)] + [Write(r.key, CompletedFields(id, a), true)]
  {
    var w := Save(Log(r, Extract(rawText)), EntityFields(e), None);
    ExtractionPassesOn(r, rawText, o, e);
    s := NormalizationCompletes(w.run, o, e, reply, a, id);
  }

  /** Stages 3 and 4 when the guardrail asks for clarification: the
      normalised fields are saved, then the guardrail's message is thrown
      before any insert. */
  lemma NormalizationClarifies(r: Run, o: Oracles, e: Entities, reply: NormReply) returns (s: Step)
    requires Valid(r) && r.inserted.None? && o.storeFaults == map[]
    requires QueryAi(o.extract) == Ok(e) && QueryAi(o.normalize) == Ok(reply)
    requires Guardrail(e, TagTimezone(reply)).NeedsClarification?
    ensures s == Normalization(r, e, o)
    ensures s.error == Some(ClarificationMessage) && s.run.inserted.None?
    ensures s.run.trace == r.trace + [Normalize(e.datePhrase, e.timePhrase)]
                           + [Write(r.key, NormalizedFields(TagTimezone(reply)), true)]
  {
    var w := Save(Log(r, Normalize(e.datePhrase, e.timePhrase)), NormalizedFields(TagTimezone(reply)), None);
    NormalizationPassesOn(r, o, e, reply);
    s := Step(w.run, Some(ClarificationMessage));
  }

  /** Stages 2 to 4 when the guardrail asks for clarification. */
  lemma ExtractionClarifies(r: Run, rawText: Option<string>, o: Oracles, e: Entities, reply: NormReply)
    returns (s: Step)
    requires Valid(r) && r.inserted.None? && o.storeFaults == map[]
    requires QueryAi(o.extract) == Ok(e) && QueryAi(o.normalize) == Ok(reply)
    requires Guardrail(e, TagTimezone(reply)).NeedsClarification?
    ensures s == Extraction(r, rawText, o)
    ensures s.error == Some(ClarificationMessage) && s.run.inserted.None?
    ensures s.run.trace == r.trace + [Extract(rawText)] + [Write(r.key, EntityFields(e), true)]
                           + [Normalize(e.datePhrase, e.timePhrase)]
                           + [Write(r.key, NormalizedFields(TagTimezone(reply)), true)]
  {
    var w := Save(Log(r, Extract(rawText)), EntityFields(e), None);
    ExtractionPassesOn(r, rawText, o, e);
    s := NormalizationClarifies(w.run, o, e, reply);
  }

  // ------------------------------------------------------- whole runs

  /** The stage lemmas build a trace one call at a time; these give the
      same trace as a display. */
  lemma Calls7(a: Effect, b: Effect, c: Effect, d: Effect, e: Effect, f: Effect, g: Effect)
    ensures [a] + [b] + [c] + [d] + [e] + [f] + [g] == [a, b, c, d, e, f, g]
  {
  }

  lemma Calls10(a: Effect, b: Effect, c: Effect, d: Effect, e: Effect, f: Effect, g: Effect,
                h: Effect, i: Effect, j: Effect)
    ensures [] + [a] + [b] + [c] + [d] + [e] + [f] + [g] + [h] + [i] + [j] == [a, b, c, d, e, f, g, h, i, j]
  {
  }

  /** The write sequence of a text job the guardrail stops. */
  predicate ClarifiedTrace(trace: seq<Effect>, key: string, rawText: Option<string>, e: Entities, n: Normalized)
  {
    trace == [Write(key, ProcessingFields(), true), Extract(rawText),
              Write(key, EntityFields(e), true), Normalize(e.datePhrase, e.timePhrase),
              Write(key, NormalizedFields(n), true),
              Write(key, FailedFields(ClarificationMessage), true)]
  }

  /** None of the stage results written before the clarification request
      is overwritten by the failure record. */
  lemma ClarifiedRecord(store: Store, trace: seq<Effect>, key: string, rawText: Option<string>,
                        e: Entities, n: Normalized)
    requires ClarifiedTrace(trace, key, rawText, e, n)
    ensures var rec := HGetAll(Replay(store, trace), key);
      Holds(rec, EntityFields(e)) && Holds(rec, NormalizedFields(n)) && Holds(rec, FailedFields(ClarificationMessage))
  {
    ClarifiedEntities(store, trace, key, rawText, e, n);
    ClarifiedNormalized(store, trace, key, rawText, e, n);
    ClarifiedFailed(store, trace, key, rawText, e, n);
  }

  lemma ClarifiedEntities(store: Store, trace: seq<Effect>, key: string, rawText: Option<string>,
                          e: Entities, n: Normalized)
    requires ClarifiedTrace(trace, key, rawText, e, n)
    ensures Holds(HGetAll(Replay(store, trace), key), EntityFields(e))
  {
    FieldsSurvive(store, trace, 2);
  }

  lemma ClarifiedNormalized(store: Store, trace: seq<Effect>, key: string, rawText: Option<string>,
                            e: Entities, n: Normalized)
    requires ClarifiedTrace(trace, key, rawText, e, n)
    ensures Holds(HGetAll(Replay(store, trace), key), NormalizedFields(n))
  {
    FieldsSurvive(store, trace, 4);
  }

  lemma ClarifiedFailed(store: Store, trace: seq<Effect>, key: string, rawText: Option<string>,
                        e: Entities, n: Normalized)
    requires ClarifiedTrace(trace, key, rawText, e, n)
    ensures Holds(HGetAll(Replay(store, trace), key), FailedFields(ClarificationMessage))
  {
    FieldsSurvive(store, trace, 5);
  }

  /** The step-1 fields of a completed image job are not overwritten by
      later stages. */
  lemma CompletedImageRecord(store: Store, trace: seq<Effect>, key: string, s3Key: Option<string>,
                             image: Bytes, ocr: OcrResult, e: Entities, n: Normalized, a: Appointment, id: int)
    requires trace == [Write(key, ProcessingFields(), true), Download(s3Key), Recognize(image),
                       Write(key, OcrFields(ocr), true), Extract(Some(ocr.rawText)),
                       Write(key, EntityFields(e), true), Normalize(e.datePhrase, e.timePhrase),
                       Write(key, NormalizedFields(n), true), Insert(a),
                       Write(key, CompletedFields(id, a), true)]
    ensures Holds(HGetAll(Replay(store, trace), key), OcrFields(ocr))
  {
    FieldsSurvive(store, trace, 3);
  }

  /** The `try` block of a text job that the guardrail stops. */
  lemma ProcessClarifies(store: Store, m: TaskMessage, key: string, o: Oracles, e: Entities, reply: NormReply)
    returns (s: Step)
    requires m.kind == Some("text") && o.storeFaults == map[]
    requires QueryAi(o.extract) == Ok(e) && QueryAi(o.normalize) == Ok(reply)
    requires Guardrail(e, TagTimezone(reply)).NeedsClarification?
    ensures s == Process(store, m, key, o)
    ensures s.error == Some(ClarificationMessage) && s.run.inserted.None?
    ensures s.run.trace == [Write(key, ProcessingFields(), true), Extract(m.data.rawText),
                            Write(key, EntityFields(e), true), Normalize(e.datePhrase, e.timePhrase),
                            Write(key, NormalizedFields(TagTimezone(reply)), true)]
  {
    var w1 := Save(Run(key, store, store, [], None), ProcessingFields(), None);
    assert Process(store, m, key, o) == Extraction(w1.run, m.data.rawText, o);
    s := ExtractionClarifies(w1.run, m.data.rawText, o, e, reply);
    var c0, c1, c2 := Write(key, ProcessingFields(), true), Extract(m.data.rawText), Write(key, EntityFields(e), true);
    var c3, c4 := Normalize(e.datePhrase, e.timePhrase), Write(key, NormalizedFields(TagTimezone(reply)), true);
    assert w1.run.trace == [c0];
    assert [c0] + [c1] + [c2] + [c3] + [c4] == [c0, c1, c2, c3, c4];
  }

  /** The `try` block of a text job that completes. */
  lemma ProcessTextCompletes(store: Store, m: TaskMessage, key: string, o: Oracles, e: Entities,
                             reply: NormReply, a: Appointment, id: int) returns (s: Step)
    requires m.kind == Some("text") && o.storeFaults == map[]
    requires QueryAi(o.extract) == Ok(e) && QueryAi(o.normalize) == Ok(reply)
    requires Guardrail(e, TagTimezone(reply)) == Finalized(a) && o.insert == Ok(id)
    ensures s == Process(store, m, key, o)
    ensures s.error.None? && s.run.inserted == Some(a)
    ensures s.run.trace == [Write(key, ProcessingFields(), true), Extract(m.data.rawText),
                            Write(key, EntityFields(e), true), Normalize(e.datePhrase, e.timePhrase),
                            Write(key, NormalizedFields(TagTimezone(reply)), true), Insert(a),
                            Write(key, CompletedFields(id, a), true)]
  {
    var w1 := Save(Run(key, store, store, [], None), ProcessingFields(), None);
    assert Process(store, m, key, o) == Extraction(w1.run, m.data.rawText, o);
    s := ExtractionCompletes(w1.run, m.data.rawText, o, e, reply, a, id);
    var c0, c1, c2 := Write(key, ProcessingFields(), true), Extract(m.data.rawText), Write(key, EntityFields(e), true);
    var c3, c4 := Normalize(e.datePhrase, e.timePhrase), Write(key, NormalizedFields(TagTimezone(reply)), true);
    var c5, c6 := Insert(a), Write(key, CompletedFields(id, a), true);
    assert w1.run.trace == [c0];
    Calls7(c0, c1, c2, c3, c4, c5, c6);
  }

  /** The `try` block of an image job that completes. */
  lemma ProcessImageCompletes(store: Store, m: TaskMessage, key: string, o: Oracles, image: Bytes,
                              data: OcrData, ocr: OcrResult, e: Entities, reply: NormReply,
                              a: Appointment, id: int) returns (s: Step)
    requires m.kind == Some("image") && o.storeFaults == map[]
    requires o.download == Some(image) && o.recognize == Ok(data) && PerformOcr(data) == Ok(ocr)
    requires QueryAi(o.extract) == Ok(e) && QueryAi(o.normalize) == Ok(reply)
    requires Guardrail(e, TagTimezone(reply)) == Finalized(a) && o.insert == Ok(id)
    ensures s == Process(store, m, key, o)
    ensures s.error.None? && s.run.inserted == Some(a)
    ensures s.run.trace == [Write(key, ProcessingFields(), true), Download(m.data.s3Key), Recognize(image),
                            Write(key, OcrFields(ocr), true), Extract(Some(ocr.rawText)),
                            Write(key, EntityFields(e), true), Normalize(e.datePhrase, e.timePhrase),
                            Write(key, NormalizedFields(TagTimezone(reply)), true), Insert(a),
                            Write(key, CompletedFields(id, a), true)]
  {
    var w1 := Save(Run(key, store, store, [], None), ProcessingFields(), None);
    var r2 := Log(Log(w1.run, Download(m.data.s3Key)), Recognize(image));
    var ws := Save(r2, OcrFields(ocr), None);
    assert Acquire(w1.run, m, o) == Acquired(ws, Some(ocr.rawText), ocr.confidence);
    assert Process(store, m, key, o) == Extraction(ws.run, Some(ocr.rawText), o);
    s := ExtractionCompletes(ws.run, Some(ocr.rawText), o, e, reply, a, id);
    var c0, c1, c2 := Write(key, ProcessingFields(), true), Download(m.data.s3Key), Recognize(image);
    var c3, c4 := Write(key, OcrFields(ocr), true), Extract(Some(ocr.rawText));
    var c5, c6 := Write(key, EntityFields(e), true), Normalize(e.datePhrase, e.timePhrase);
    var c7, c8, c9 := Write(key, NormalizedFields(TagTimezone(reply)), true), Insert(a), Write(key, CompletedFields(id, a), true);
    Calls10(c0, c1, c2, c3, c4, c5, c6, c7, c8, c9);
  }

  /** When the guardrail asks for clarification, the job fails with the
      guardrail's message, nothing is inserted, and the step-2 and step-3
      fields stay in the record. */
  lemma HandleNeedsClarification(store: Store, m: TaskMessage, o: Oracles, e: Entities, reply: NormReply)
    requires m.kind == Some("text") && o.storeFaults == map[]
    requires QueryAi(o.extract) == Ok(e) && QueryAi(o.normalize) == Ok(reply)
    requires Guardrail(e, TagTimezone(reply)).NeedsClarification?
    ensures var h := Handle(store, Some(m), o);
      var key := JobKey(Template(m.jobId));
      var rec := HGetAll(h.store, key);
      && h.trace == [Write(key, ProcessingFields(), true), Extract(m.data.rawText),
                     Write(key, EntityFields(e), true), Normalize(e.datePhrase, e.timePhrase),
                     Write(key, NormalizedFields(TagTimezone(reply)), true),
                     Write(key, FailedFields(ClarificationMessage), true)]
      && h.inserted.None? && !h.escaped
      && Holds(rec, FailedFields(ClarificationMessage))
      && Holds(rec, EntityFields(e)) && Holds(rec, NormalizedFields(TagTimezone(reply)))
  {
    var key := JobKey(Template(m.jobId));
    var s := ProcessClarifies(store, m, key, o, e, reply);
    var f := Save(s.run, FailedFields(ClarificationMessage), None);
    assert Handle(store, Some(m), o) == Handled(f.run.store, f.run.trace, None, false);
    var c0, c1, c2 := Write(key, ProcessingFields(), true), Extract(m.data.rawText), Write(key, EntityFields(e), true);
    var c3, c4 := Normalize(e.datePhrase, e.timePhrase), Write(key, NormalizedFields(TagTimezone(reply)), true);
    var c5 := Write(key, FailedFields(ClarificationMessage), true);
    assert [c0, c1, c2, c3, c4] + [c5] == [c0, c1, c2, c3, c4, c5];
    var h := Handle(store, Some(m), o);
    ClarifiedRecord(store, h.trace, key, m.data.rawText, e, TagTimezone(reply));
  }

  /** A text job whose every call succeeds and passes the guardrail: the
      exact calls made, in order (no step-1 fields are written), one
      appointment inserted, and a completed record naming it. */
  lemma HandleTextJobCompletes(store: Store, m: TaskMessage, o: Oracles, e: Entities, reply: NormReply,
                               a: Appointment, id: int)
    requires m.kind == Some("text") && o.storeFaults == map[]
    requires QueryAi(o.extract) == Ok(e) && QueryAi(o.normalize) == Ok(reply)
    requires Guardrail(e, TagTimezone(reply)) == Finalized(a) && o.insert == Ok(id)
    ensures var h := Handle(store, Some(m), o);
      var key := JobKey(Template(m.jobId));
      && h.trace == [Write(key, ProcessingFields(), true), Extract(m.data.rawText),
                     Write(key, EntityFields(e), true), Normalize(e.datePhrase, e.timePhrase),
                     Write(key, NormalizedFields(TagTimezone(reply)), true), Insert(a),
                     Write(key, CompletedFields(id, a), true)]
      && h.inserted == Some(a) && !h.escaped
      && CompletedWith(HGetAll(h.store, key), id, a)
  {
    var key := JobKey(Template(m.jobId));
    var s := ProcessTextCompletes(store, m, key, o, e, reply, a, id);
    assert Handle(store, Some(m), o) == Handled(s.run.store, s.run.trace, s.run.inserted, false);
  }

  /** An image job whose every call succeeds: the image is fetched by the
      message's key, the trimmed OCR text is saved as step 1 and is what
      entity extraction reads. */
  lemma HandleImageJobCompletes(store: Store, m: TaskMessage, o: Oracles, image: Bytes, data: OcrData,
                                ocr: OcrResult, e: Entities, reply: NormReply, a: Appointment, id: int)
    requires m.kind == Some("image") && o.storeFaults == map[]
    requires o.download == Some(image) && o.recognize == Ok(data) && PerformOcr(data) == Ok(ocr)
    requires QueryAi(o.extract) == Ok(e) && QueryAi(o.normalize) == Ok(reply)
    requires Guardrail(e, TagTimezone(reply)) == Finalized(a) && o.insert == Ok(id)
    ensures var h := Handle(store, Some(m), o);
      var key := JobKey(Template(m.jobId));
      && h.trace == [Write(key, ProcessingFields(), true), Download(m.data.s3Key), Recognize(image),
                     Write(key, OcrFields(ocr), true), Extract(Some(Trim(data.text.value))),
                     Write(key, EntityFields(e), true), Normalize(e.datePhrase, e.timePhrase),
                     Write(key, NormalizedFields(TagTimezone(reply)), true), Insert(a),
                     Write(key, CompletedFields(id, a), true)]
      && h.inserted == Some(a) && !h.escaped
      && CompletedWith(HGetAll(h.store, key), id, a)
      && Holds(HGetAll(h.store, key), OcrFields(ocr))
  {
    var key := JobKey(Template(m.jobId));
    var s := ProcessImageCompletes(store, m, key, o, image, data, ocr, e, reply, a, id);
    assert Handle(store, Some(m), o) == Handled(s.run.store, s.run.trace, s.run.inserted, false);
    var h := Handle(store, Some(m), o);
    CompletedImageRecord(store, h.trace, key, m.data.s3Key, image, ocr, e, TagTimezone(reply), a, id);
  }

  /** Any error thrown inside the `try` block, at whatever stage and for
      whatever job, ends in a `failed` record carrying that error's
      message, unless recording the failure throws too. */
  lemma HandleFailureRecorded(store: Store, m: TaskMessage, o: Oracles)
    ensures var key := JobKey(Template(m.jobId));
      var s := Process(store, m, key, o);
      var h := Handle(store, Some(m), o);
      s.error.Some? && FailedWrite !in o.storeFaults ==>
        !h.escaped && Holds(HGetAll(h.store, key), FailedFields(s.error.value))
  {
    var key := JobKey(Template(m.jobId));
    var s := Process(store, m, key, o);
    if s.error.Some? && FailedWrite !in o.storeFaults {
      var f := Save(s.run, FailedFields(s.error.value), None);
      assert Handle(store, Some(m), o) == Handled(f.run.store, f.run.trace, f.run.inserted, false);
    }
  }

  /** An image that OCR cannot read fails the job with the engine's own
      error, or with the no-text message when it finds only whitespace;
      the AI and the database are never called. */
  lemma HandleOcrFails(store: Store, m: TaskMessage, o: Oracles)
    requires m.kind == Some("image") && o.download.Some?
    requires ProcessingWrite !in o.storeFaults && FailedWrite !in o.storeFaults
    ensures var h := Handle(store, Some(m), o);
      var rec := HGetAll(h.store, JobKey(Template(m.jobId)));
      && (o.recognize.Err? ==> !h.escaped && h.inserted.None? && Holds(rec, FailedFields(o.recognize.message)))
      && (o.recognize.Ok? && PerformOcr(o.recognize.value).Err? ==>
            !h.escaped && h.inserted.None? && Holds(rec, FailedFields(NoTextFound)))
  {
    var key := JobKey(Template(m.jobId));
    var w1 := Save(Run(key, store, store, [], None), ProcessingFields(), None);
    var a := Acquire(w1.run, m, o);
    if o.recognize.Err? || PerformOcr(o.recognize.value).Err? {
      assert Process(store, m, key, o) == a.step;
      HandleFailureRecorded(store, m, o);
    }
  }

  /** A failed or unparsable AI reply, at extraction or at normalisation,
      fails a readable job with the one funnel message and inserts
      nothing. */
  lemma HandleAiFails(store: Store, m: TaskMessage, o: Oracles)
    requires Readable(m, o)
    requires ProcessingWrite !in o.storeFaults && OcrWrite !in o.storeFaults && FailedWrite !in o.storeFaults
    requires QueryAi(o.extract).Err? || (EntitiesWrite !in o.storeFaults && QueryAi(o.normalize).Err?)
    ensures var h := Handle(store, Some(m), o);
      && !h.escaped && h.inserted.None?
      && Holds(HGetAll(h.store, JobKey(Template(m.jobId))), FailedFields(AiInvalidJson))
  {
    var key := JobKey(Template(m.jobId));
    var w1 := Save(Run(key, store, store, [], None), ProcessingFields(), None);
    var a := Acquire(w1.run, m, o);
    AcquireReads(w1.run, m, o);
    assert Process(store, m, key, o) == Extraction(a.step.run, a.rawText, o);
    if QueryAi(o.extract).Ok? {
      var e := QueryAi(o.extract).value;
      ExtractionPassesOn(a.step.run, a.rawText, o, e);
    }
    HandleFailureRecorded(store, m, o);
  }

  /** A stage write that throws stops a readable job there: the job fails
      with the write's error and nothing is inserted. */
  lemma HandleStageWriteFails(store: Store, m: TaskMessage, o: Oracles)
    requires Readable(m, o) && ProcessingWrite !in o.storeFaults && FailedWrite !in o.storeFaults
    ensures var h := Handle(store, Some(m), o);
      var rec := HGetAll(h.store, JobKey(Template(m.jobId)));
      && (m.kind == Some("image") && OcrWrite in o.storeFaults ==>
            !h.escaped && h.inserted.None? && Holds(rec, FailedFields(o.storeFaults[OcrWrite])))
      && (OcrWrite !in o.storeFaults && QueryAi(o.extract).Ok? && EntitiesWrite in o.storeFaults ==>
            !h.escaped && h.inserted.None? && Holds(rec, FailedFields(o.storeFaults[EntitiesWrite])))
      && (OcrWrite !in o.storeFaults && QueryAi(o.extract).Ok? && EntitiesWrite !in o.storeFaults
          && QueryAi(o.normalize).Ok? && NormalizedWrite in o.storeFaults ==>
            !h.escaped && h.inserted.None? && Holds(rec, FailedFields(o.storeFaults[NormalizedWrite])))
  {
    var key := JobKey(Template(m.jobId));
    var w1 := Save(Run(key, store, store, [], None), ProcessingFields(), None);
    var a := Acquire(w1.run, m, o);
    if m.kind == Some("image") && OcrWrite in o.storeFaults {
      assert Process(store, m, key, o) == a.step;
    } else if OcrWrite !in o.storeFaults && QueryAi(o.extract).Ok? {
      AcquireReads(w1.run, m, o);
      assert Process(store, m, key, o) == Extraction(a.step.run, a.rawText, o);
      if EntitiesWrite !in o.storeFaults {
        ExtractionPassesOn(a.step.run, a.rawText, o, QueryAi(o.extract).value);
      }
    }
    HandleFailureRecorded(store, m, o);
  }

  /** The `try` block of a readable job whose insert succeeds but whose
      `completed` write throws. */
  lemma ProcessCompletionWriteFails(store: Store, m: TaskMessage, key: string, o: Oracles, e: Entities,
                                    reply: NormReply, a: Appointment, id: int, msg: string)
    requires Readable(m, o) && o.storeFaults == map[CompletedWrite := msg]
    requires QueryAi(o.extract) == Ok(e) && QueryAi(o.normalize) == Ok(reply)
    requires Guardrail(e, TagTimezone(reply)) == Finalized(a) && o.insert == Ok(id)
    ensures Process(store, m, key, o).error == Some(msg)
    ensures Process(store, m, key, o).run.inserted == Some(a)
  {
    var w := ProcessReachesGuardrail(store, m, key, o, e, reply);
  }

  /** A `completed` write that throws after a successful insert fails the
      job with the write's error, while the appointment row stays
      inserted. */
  lemma HandleCompletionWriteFails(store: Store, m: TaskMessage, o: Oracles, e: Entities, reply: NormReply,
                                   a: Appointment, id: int, msg: string)
    requires Readable(m, o) && o.storeFaults == map[CompletedWrite := msg]
    requires QueryAi(o.extract) == Ok(e) && QueryAi(o.normalize) == Ok(reply)
    requires Guardrail(e, TagTimezone(reply)) == Finalized(a) && o.insert == Ok(id)
    ensures var h := Handle(store, Some(m), o);
      && h.inserted == Some(a) && !h.escaped
      && Holds(HGetAll(h.store, JobKey(Template(m.jobId))), FailedFields(msg))
  {
    var key := JobKey(Template(m.jobId));
    ProcessCompletionWriteFails(store, m, key, o, e, reply, a, id, msg);
    HandleFailureRecorded(store, m, o);
    HandleKeepsInserted(store, m, o);
  }

  /** The failure write leaves what the `try` block inserted as it was. */
  lemma HandleKeepsInserted(store: Store, m: TaskMessage, o: Oracles)
    ensures Handle(store, Some(m), o).inserted == Process(store, m, JobKey(Template(m.jobId)), o).run.inserted
  {
  }

  /** A job whose text can be had: a text job, or an image job whose image
      is fetched and in which OCR finds text. */
  predicate Readable(m: TaskMessage, o: Oracles)
  {
    || m.kind == Some("text")
    || (m.kind == Some("image") && o.download.Some? && o.recognize.Ok? && PerformOcr(o.recognize.value).Ok?)
  }

  /** Stage 1 of a readable job passes its text on without error. */
  lemma AcquireReads(r: Run, m: TaskMessage, o: Oracles)
    requires Valid(r) && Readable(m, o) && OcrWrite !in o.storeFaults
    ensures Acquire(r, m, o).step.error.None?
  {
  }

  /** A readable job whose stage writes succeed and whose two AI replies
      parse reaches the guardrail with nothing inserted. */
  lemma ProcessReachesGuardrail(store: Store, m: TaskMessage, key: string, o: Oracles,
                                e: Entities, reply: NormReply) returns (w: Run)
    requires Readable(m, o)
    requires ProcessingWrite !in o.storeFaults && OcrWrite !in o.storeFaults
    requires EntitiesWrite !in o.storeFaults && NormalizedWrite !in o.storeFaults
    requires QueryAi(o.extract) == Ok(e) && QueryAi(o.normalize) == Ok(reply)
    ensures Valid(w) && w.inserted.None? && w.key == key
    ensures Process(store, m, key, o) == Finalize(w, e, TagTimezone(reply), o)
  {
    var w1 := Save(Run(key, store, store, [], None), ProcessingFields(), None);
    var a := Acquire(w1.run, m, o);
    AcquireReads(w1.run, m, o);
    assert Process(store, m, key, o) == Extraction(a.step.run, a.rawText, o);
    var w2 := Save(Log(a.step.run, Extract(a.rawText)), EntityFields(e), None);
    ExtractionPassesOn(a.step.run, a.rawText, o, e);
    var w3 := Save(Log(w2.run, Normalize(e.datePhrase, e.timePhrase)), NormalizedFields(TagTimezone(reply)), None);
    NormalizationPassesOn(w2.run, o, e, reply);
    w := w3.run;
  }

  /** When the guardrail asks for clarification, any readable job fails
      with the guardrail's message and no appointment is inserted, or
      even attempted. */
  lemma HandleGuardrailRejects(store: Store, m: TaskMessage, o: Oracles, e: Entities, reply: NormReply)
    requires Readable(m, o) && o.storeFaults == map[]
    requires QueryAi(o.extract) == Ok(e) && QueryAi(o.normalize) == Ok(reply)
    requires Guardrail(e, TagTimezone(reply)).NeedsClarification?
    ensures var h := Handle(store, Some(m), o);
      && h.inserted.None? && !h.escaped
      && (forall a :: Insert(a) !in h.trace)
      && Holds(HGetAll(h.store, JobKey(Template(m.jobId))), FailedFields(ClarificationMessage))
  {
    var key := JobKey(Template(m.jobId));
    var w := ProcessReachesGuardrail(store, m, key, o, e, reply);
    HandleFailureRecorded(store, m, o);
  }

  /** A database error fails any readable job with that error; nothing
      counts as inserted. */
  lemma HandleInsertFails(store: Store, m: TaskMessage, o: Oracles, e: Entities, reply: NormReply,
                          a: Appointment, error: string)
    requires Readable(m, o) && o.storeFaults == map[]
    requires QueryAi(o.extract) == Ok(e) && QueryAi(o.normalize) == Ok(reply)
    requires Guardrail(e, TagTimezone(reply)) == Finalized(a) && o.insert == Err(error)
    ensures var h := Handle(store, Some(m), o);
      && h.inserted.None? && !h.escaped
      && Holds(HGetAll(h.store, JobKey(Template(m.jobId))), FailedFields(error))
  {
    var key := JobKey(Template(m.jobId));
    var w := ProcessReachesGuardrail(store, m, key, o, e, reply);
    HandleFailureRecorded(store, m, o);
  }
}
